=== FILE: README.md ===
# TurboTurbo match simulation in Dafny

This project models the match engine of TurboTurbo. TurboTurbo is a two-player
side-scrolling battle racer written in JavaScript on Phaser 3. Two players drift
right through a scrolling 800 × 600 arena. They pick up item boxes, fire
missiles, and take damage from walls, rocks, spikes and each other. The match
ends when a player runs out of lives or the match clock expires.

The game keeps its state in module-level variables and mutates records in
place. The model lifts that state into one immutable `State` record and writes
each step of `update` as a pure function:

- the clock;
- the spawners;
- the player step and item use;
- missile, obstacle and item-box motion;
- the three collision phases;
- off-screen culling;
- the outcome rule.

The pause-menu toggle, the frame gating and the menu's setters are modelled
the same way.

Modules, leaf first:

- `Numeric` (numeric.dfy): `Math.min`/`Math.max`, `Math.round`, and `clamp`/`clampInt`.
- `Geometry` (geometry.dfy): centre-based boxes and `rectsOverlap`.
- `Seqs` (seqs.dfy): order-preserving filter, the shape of `Array.prototype.filter`.
- `Entities` (entities.dfy): player, item box, missile, obstacle and arena records, plus the obstacle hit-point discipline.
- `Tunables` (tunables.dfy): the nine tunables, their setters and ranges, and the menu cursor.
- `Spawner` (spawner.dfy): `spawnLogic`, `spawnObstacle`, `spawnSpike`, `spawnItemBox`.
- `Controller` (controller.dfy): `tickPlayer`, `useItem`, `makeMissile`.
- `Collisions` (collisions.dfy): `handleCollisions`, `damage`, `bounceFrom`.
- `Cleanup` (cleanup.dfy): `cleanupOffscreen`.
- `MatchRules` (match_rules.dfy): `scrollSpeed` and `checkWinCondition`.
- `Simulation` (simulation.dfy): `initMatch`, the menu toggle, and the gating and order of `update`.

Modelling choices:

- Coordinates, speeds and timers are exact `real`s.
- Lives and hit points are `int`s.
- `Math.round` is `floor(v + 1/2)`.
- Each `Math.random()` draw is a `Sample` in [0, 1). A tick takes a sequence
  of samples and consumes them in the game's own draw order. A tick uses at
  most 9 draws.
- Held keys are booleans, and so are `JustDown` presses.
- The menu reads its key presses once per frame while it is open. On the
  frame that opens it, `handleMenuInput` runs twice. The second call sees the
  presses already consumed, so the model applies them once.

Behaviour of the code that is easy to get wrong; the model follows the code:

- At time-up the winner is the player with the larger x, not the one with
  more lives (`MatchRules.TimeUpTieBreakIgnoresLives`).
- The cooldown and invulnerability timers count down only while positive and
  are not floored at zero (`Controller.CountdownOvershoots`).
- Only walls can be destroyed. Rocks and spikes lose hit points but never die.
- Front and back fire one missile, and sides fires two.
- The item-box loop does not skip boxes already used up. Two players touching
  the same box in one pass both take its reward
  (`Collisions.PickupCanGrantTwice`).
- A missile's hit box is given the centre (x - r, y - r) and side 2r, and the
  centre-based overlap test reads it as such. The box is therefore centred up
  and to the left of the missile. `Missile.HitBox` models this as written.
- The default start lives (999) and move speed (0.02) lie outside their
  setters' ranges. The life reward caps lives at 9, so a player on 999 lives
  who used it would drop to 9. No item box ever holds that reward
  (`Simulation.GrantedNeverLife`, `Simulation.UpdatePreservesInv`).

## Model

| member | source | states |
|---|---|---|
| `Numeric.Round` | game.js:361 | `Math.round` returns the integer k with v - 1/2 < k <= v + 1/2, so halves round up |
| `Numeric.RoundIsUnique` | game.js:361 | only one integer lies in that window, so the rounding is determined |
| `Numeric.Clamp` | game.js:360 | with lo <= hi the result lies in [lo, hi]; a value already in range is returned unchanged, and one below or above becomes lo or hi |
| `Numeric.ClampIdempotent` | game.js:360 | clamping twice is the same as clamping once |
| `Numeric.ClampMonotone` | game.js:360 | clamping preserves order |
| `Numeric.ClampInt` | game.js:361 | the rounded value is clamped into [lo, hi]; a rounded value already in range is kept |
| `Geometry.OverlapSymmetric` | game.js:217-219 | the overlap test is symmetric in its two boxes |
| `Geometry.EdgeContactIsNotOverlap` | game.js:217-219 | boxes that only share an edge do not overlap; the test is strict |
| `Geometry.OverlapIffSharedInterior` | game.js:217-219 | for boxes of positive size, they overlap exactly when some point lies strictly inside both |
| `Seqs.Filter` | game.js:211-212 | the filter's result is an order-preserving subsequence; every element satisfies the predicate; each value occurs as often as in the input if it satisfies the predicate and not at all otherwise; an all-satisfying input is returned whole |
| `Seqs.FilterIdempotent` | game.js:211-212 | filtering twice with the same predicate equals filtering once |
| `Entities.MakePlayer` | game.js:65-67 | a new player is 26 × 16, at rest, holds no item, and has zero cooldown and invulnerability |
| `Tunables.Set` | game.js:306-314 | each setter stores exactly `Stored`, the value the range tables prescribe; so the value is in range, whole on the match-time and lives rows, an in-range input is stored unchanged, input below or above the range lands on that bound, and on the whole-number rows an in-range rounded input is stored rounded |
| `Tunables.SetLeavesOtherRows` | game.js:306-314 | a setter changes no row but its own |
| `Tunables.StoredFacts` | game.js:306-314 | the value the tables prescribe is in range, whole on the whole-number rows, equal to an in-range input, and the nearer bound for an out-of-range input |
| `Tunables.Adjust` | game.js:345-347 | a lone left press stores the old value minus the row's step, passed through the setter; a lone right press the old value plus the step; both presses apply left then right; no other row changes; with no press nothing changes |
| `Tunables.MenuInput` | game.js:342-348 | up alone moves the cursor up, down alone moves it down, both leave it in place; the row under the cursor then takes the left and right presses in that order, as `Adjust` states, and no other row changes |
| `Tunables.CursorUp` | game.js:343 | an up press moves the cursor one row up, and from row 0 to row 8 |
| `Tunables.CursorDown` | game.js:344 | a down press moves the cursor one row down, and from row 8 to row 0 |
| `Tunables.MoveCursor` | game.js:343-344 | up then down: each alone moves the cursor one row, both together leave it in place |
| `Tunables.StepDown` | game.js:346 | a left press stores the old value minus the step, passed through the setter, and changes no other row |
| `Tunables.StepUp` | game.js:347 | a right press stores the old value plus the step, passed through the setter, and changes no other row |
| `Tunables.CursorWraps` | game.js:343-344 | the cursor wraps from row 0 to row 8 and back, and down undoes up |
| `Tunables.RightThenLeftRestores` | game.js:345-347 | when a value has room for one step, a right press then a left press restores it |
| `Spawner.SizeFromSample` | game.js:116-117 | an obstacle side is 24, 40 or 56, picked by which third of [0, 1) the sample falls in |
| `Spawner.BandY` | game.js:114 | a spawned obstacle or item box is placed at a y in [120, 480) |
| `Spawner.SpawnObstacle` | game.js:113-119 | a new obstacle is a wall with 2 hit points exactly when its sample is below 1/2, and otherwise a rock with 999; it is alive, enters at x = 840 and obeys the hit-point discipline; its y is the band position of the first draw and its width and height are the sizes picked by the third and fourth draws |
| `Spawner.SpawnSpike` | game.js:121-124 | a spike is 20 × 60 with 999 hit points, enters alive at (840, 520) and obeys the hit-point discipline |
| `Spawner.SpawnItemBox` | game.js:126-132 | an item box holds front, back or sides by the thresholds 0.33 and 0.66, and never holds a life; it is 20 × 20, enters alive at x = 840, and its y is the band position of the first draw |
| `Spawner.SpawnLogic` | game.js:107-111 | spawning only appends, all valid. An obstacle is added exactly when the first draw is below the obstacle rate, built from the next four draws. A spike is added exactly when the following draw is below the spike rate. The number of obstacles added is the number of those two draws that succeed. An item box is added exactly when the draw after that is below the item rate, built from the next two draws |
| `Controller.Axis` | game.js:135-136 | an input axis gives -0.35, +0.35 or 0, and the negative key wins when both are held |
| `Controller.CountdownSteps` | game.js:143-144 | a timer falls by exactly dt while positive, is unchanged otherwise, and never rises for dt >= 0 |
| `Controller.CountdownOvershoots` | game.js:143-144 | a timer is not floored: 10 ms left and a 16 ms step leave -6 |
| `Controller.MovePlayer` | game.js:134-144 | after the motion step, 40 <= x <= 760 and 60 <= y <= 540, and a target past an edge lands on that edge; velocity gains -0.35 or +0.35 times the move speed times dt on a held axis (the negative key winning) and is damped by 0.9; each timer counts down by dt only while positive; lives, item and identity do not change |
| `Controller.MoveInsideIsUnclamped` | game.js:139-142 | the clamp is the only correction: a step that stays inside the rectangle is not altered |
| `Controller.MakeMissile` | game.js:161-163 | a missile belongs to its shooter, is alive, flies at 0.6 with radius 6, and starts 20 units along its direction |
| `Controller.UseItem` | game.js:150-159 | item use does nothing without an item or while the cooldown is positive. Otherwise the item is spent. A life adds one life up to 9 and fires nothing. Front and back fire one missile with dx = +1 or -1; sides fires +1 then -1. Every shot is the missile `makeMissile` launches from the player with its dx and dy = 0, and the cooldown becomes 300 |
| `Controller.UseItemTwiceIsNoop` | game.js:151 | a second immediate use does nothing |
| `Controller.TickPlayer` | game.js:134-148 | the player ends where the motion step puts it, with that step's velocity and invulnerability; the cooldown is the motion step's countdown, or 300 when a shot reward is fired; a fire press with an item, once the cooldown has run out, fires exactly what `useItem` fires from the moved player and spends the item, and a life adds one up to 9; without a fire press, without an item, or while the cooldown still runs, nothing is fired and lives and item are kept |
| `Controller.TickPlayers` | game.js:88 | each player's result is its own step with its own keys; the missile list afterwards is the old missiles followed by each player's shots in player order (for two players, player 1's shots then player 2's), so no shot is lost or added; each new missile is alive and belongs to one of the players |
| `Collisions.Damage` | game.js:200-203 | damage is ignored exactly when the player is invulnerable; otherwise lives drop by the amount and the timer becomes 600; nothing else changes |
| `Collisions.AtMostOneHitAbsorbsDamage` | game.js:200-203 | once a hit has landed in a pass, further hits leave lives and timer alone |
| `Collisions.BounceFrom` | game.js:205-208 | a bounce keeps the player on its side of the obstacle's centre and moves it 12 further away horizontally and 8 further vertically |
| `Collisions.BounceCanLeaveRectangle` | game.js:205-208 | a bounce can push a player outside the rectangle the player step clamped it to |
| `Collisions.CollectAll` | game.js:168-170 | one player against the item boxes: an empty-handed player takes the reward of the first box it overlaps; a player already holding an item keeps it; every overlapped box is marked dead |
| `Collisions.GrantedIgnoresDeadFlags` | game.js:169 | which reward is taken does not depend on the boxes' dead flags |
| `Collisions.PickupPhase` | game.js:167-171 | each player is granted against the original boxes; a box is dead afterwards exactly when it was dead or some player overlaps it |
| `Collisions.PickupCanGrantTwice` | game.js:167-171 | two empty-handed players on one box both take its reward in the same pass |
| `Collisions.Collide` | game.js:176-179 | a player not touching the obstacle is unchanged; on contact it is damaged by one unless invulnerable; a spike never moves it, while a wall or rock pushes it 12 further away horizontally and 8 vertically |
| `Collisions.CollideAll` | game.js:174-181 | one player against the obstacles takes at most one hit; only position, lives and timer change; a player touching no obstacle is unchanged |
| `Collisions.FirstContactBounces` | game.js:174-181 | when the first obstacle a player touches leaves it clear of every later one, the player ends exactly damaged and, unless that obstacle is a spike, bounced away from it |
| `Collisions.FirstContactHurts` | game.js:174-181 | a vulnerable player whose first contact is some obstacle loses exactly one life and becomes invulnerable, however many obstacles follow |
| `Collisions.ContactHurtsVulnerable` | game.js:174-181 | a vulnerable player loses a life against the obstacles exactly when it touches one, and is unchanged otherwise |
| `Collisions.SpikesNeverBounce` | game.js:178 | against spikes alone a player is never moved |
| `Collisions.StrikeChipsOnePoint` | game.js:187-188 | a struck obstacle loses exactly one hit point and dies exactly when it is a wall left with 0 or fewer |
| `Collisions.ShootAll` | game.js:186-190 | one missile against the obstacles: dead obstacles are skipped, each live obstacle under the hit box is chipped, and the missile is dead exactly when it was already or it struck one |
| `Collisions.WallFallsOnSecondStrike` | game.js:186-190 | a fresh wall has 1 hit point and is alive after one strike, and has 0 and is dead after a second |
| `Collisions.StrikeAll` | game.js:192-196 | one missile against the players: each player other than the owner under the hit box is damaged; the owner is never touched; the missile is dead exactly when it was already or it hit someone |
| `Collisions.MissilePhase` | game.js:184-197 | over all missiles: a missile that covers a player other than its owner ends dead, and missiles only ever gain the dead flag; a missile that strikes no live obstacle and covers no other player is left exactly as it was; a vulnerable player covered by some other player's missile loses exactly one life and becomes invulnerable; a player covered by none is unchanged; obstacles only wear; a missile striking a live rock or spike, or a live obstacle no earlier missile covered, ends dead; an obstacle no missile covers is unchanged, and a live one some missile covers loses hit points |
| `Collisions.HandleCollisions` | game.js:165-198 | over the whole pass each player takes at most one hit and keeps its id; items are granted as in the pickup rule; a box is dead afterwards exactly when it was dead or some player overlaps it; a vulnerable player touching an obstacle, or touching none but covered by another player's missile, loses exactly one life; a player touched by neither keeps everything but its item; each player ends at the position the obstacle contacts alone give it; obstacles only wear and missiles only gain the dead flag |
| `Collisions.HandleCollisionsShots` | game.js:184-197 | over the whole pass, a missile striking a live rock or spike, or a live obstacle no earlier missile covered, ends dead; an obstacle no missile covers is unchanged, and a live one some missile covers loses hit points; a missile covering another player where the players end up ends dead, and one that strikes no live obstacle and covers no other player is left exactly as it was |
| `Collisions.InvulnerabilityGatesDamage` | game.js:165-203 | in one pass an invulnerable player loses no lives, and any player loses at most one |
| `Cleanup.CleanupOffscreen` | game.js:210-215 | culling keeps an order-preserving subsequence of each list with no dead or out-of-margin entry; every entry that is alive and in the margin survives as often as it occurred; the players are left alone |
| `Cleanup.CleanupIdempotent` | game.js:210-215 | culling twice equals culling once |
| `MatchRules.ScrollSpeed` | game.js:101-105 | the scroll speed is the slow tier before 20 s, the medium tier from 20 s up to 40 s, and the fast tier from 40 s on |
| `MatchRules.ScrollSpeedMonotone` | game.js:101-105 | with ordered tiers, the scroll speed never decreases as time passes |
| `MatchRules.ScrollTierAtTwentySeconds` | game.js:101-105 | the tier is slow at 19.9 s, medium from 20 s on, and fast at 40 s |
| `MatchRules.CheckWin` | game.js:271-281 | exactly one dead player means the other wins; two dead means a draw; both alive at time-up means the larger x wins and equal x draws; there is an outcome exactly when a player is dead or time is up |
| `MatchRules.CheckWinIsFair` | game.js:271-281 | swapping the two players mirrors the outcome |
| `MatchRules.TimeUpTieBreakIgnoresLives` | game.js:279 | at time-up, a player with 5 lives further left loses to one with 3 lives further right |
| `Simulation.InitMatch` | game.js:42-51 | a new match starts running at time 0 with no menu and no outcome; player 1 is a fresh player at (240, 300) and player 2 one at (200, 340), both on the configured lives; the field is empty, and the invariant holds |
| `Simulation.MoveAll` | game.js:89-91 | motion changes only positions: obstacles and item boxes move left by sp · dt, and each missile moves by its direction times its speed times dt |
| `Simulation.CollideThenCull` | game.js:165-215 | one collision pass followed by the cull satisfies `Survivors`: item boxes by count, obstacles no missile covered, missiles that struck and covered nothing, and players at their bounced positions; nothing is left that was not on the field |
| `Simulation.Advance` | game.js:82-98 | a tick advances the clock by min(50, dt) / 1000 s and keeps the config and menu; the outcome is the win rule applied to the new players and clock, and the match keeps running exactly when no outcome is set; at most two obstacles and one item box are added; each player took at most one hit after its own step and keeps its id; what is left of the spawned, stepped and moved field satisfies `Survivors`: an item box stays, as often as it occurred, exactly when it is alive, inside the margins and reached by no player; an obstacle no missile covered stays if alive and inside the margins, and every obstacle left is a worn one of the field; a missile that struck nothing and covers no player stays if alive and inside the margins, and every missile left is one of the field's, untouched; players end where their obstacle contacts put them |
| `Simulation.Toggle` | game.js:78-80 | the toggle changes only the menu and running flags: opening puts the cursor on row 0 and stops the match; closing resumes it only if it has not ended |
| `Simulation.Update` | game.js:76-99 | after the toggle is applied, a frame with the menu open or the match stopped leaves the field, clock and outcome alone; a stopped match with no menu is left entirely unchanged; a running frame is exactly one tick, so the clock advances by min(50, dt) / 1000 s, the outcome is the win rule on the new players and clock, and the match keeps running exactly when no outcome is set; with the menu open the config and cursor are what the menu's key handling makes of them; with it closed the config is unchanged |
| `Simulation.FrozenWhilePaused` | game.js:81 | while the menu stays open, the field, clock and outcome do not change |
| `Simulation.FrozenOnceEnded` | game.js:81 | after the match has ended, no frame changes the field, clock or outcome, and the match stays stopped |
| `Simulation.RunningFrameAdvancesClock` | game.js:82-83 | a running frame advances the clock by min(50, dt) / 1000 s, so by at most 0.05 s |
| `Simulation.SpikeDecidesMatch` | game.js:178 | player 1 on its last life touches a spike, drops to 0 lives, and player 2 wins |
| `Simulation.GrantedNeverLife` | game.js:129-130 | because no item box holds a life, pickups never hand a player one |
| `Simulation.UpdatePreservesInv` | game.js:76-99 | every frame keeps the invariant: players 1 and 2 in order; a running match has no menu and no outcome; every obstacle obeys the hit-point discipline; no box or player holds a life |

## Left out

- Rendering (`render`, `drawBackground`, `rectCentered`), HUD text (`updateUI`, `styleText`, `formatVal`) and the menu's drawing (`drawMenu` apart from its call to `handleMenuInput`): presentation only.
- `tone`: Web Audio calls with no effect on the simulation.
- Phaser boot, scene and keyboard set-up (`config`, `create`, `setupInput`) and the text objects made by `initMatch`: framework calls. Keys are boolean inputs instead.
- The menu and end-of-match overlays and the rematch hook in `endMatch`: UI only. Ending a match is modelled as setting the outcome and stopping the match.
- Player colours: used only for drawing.
- `Math.random`: each draw is an explicit sample parameter. The samples are assumed to lie in [0, 1), as `Math.random` promises.
- IEEE-754 rounding: all arithmetic is exact. So the 0.001 and 0.01 menu steps and the `0.33`/`0.66` thresholds behave as exact decimals.

=== FILE: cleanup.dfy ===
/**
 cleanupOffscreen: drop dead missiles, obstacles and item boxes, and those
 outside a margin around the 800 x 600 arena. Culling is a pure filter.
 */
module Cleanup {
  import opened Seqs
  import opened Entities

  /** A missile survives while alive and strictly inside (-20, 820) x (-20, 620). */
  predicate MissileKept(m: Missile) {
    !m.dead && m.x > -20.0 && m.x < 820.0 && m.y > -20.0 && m.y < 620.0
  }

  /** An obstacle survives while alive, its x plus its width is past -40, and -80 < y < 680. */
  predicate ObstacleKept(o: Obstacle) {
    !o.dead && o.x + o.w > -40.0 && o.y > -80.0 && o.y < 680.0
  }

  /** Item boxes are culled by the same rule as obstacles. */
  predicate ItemKept(it: Item) {
    !it.dead && it.x + it.w > -40.0 && it.y > -80.0 && it.y < 680.0
  }

  function CleanupOffscreen(a: Arena): (r: Arena)
    ensures r.players == a.players
    ensures IsSubsequence(r.missiles, a.missiles) && IsSubsequence(r.obstacles, a.obstacles)
    ensures IsSubsequence(r.items, a.items)
    ensures forall k :: 0 <= k < |r.missiles| ==> MissileKept(r.missiles[k])
    ensures forall j :: 0 <= j < |r.obstacles| ==> ObstacleKept(r.obstacles[j])
    ensures forall j :: 0 <= j < |r.items| ==> ItemKept(r.items[j])
    ensures forall m :: m in a.missiles && MissileKept(m) ==> m in r.missiles
    ensures forall o :: o in a.obstacles && ObstacleKept(o) ==> o in r.obstacles
    ensures forall it :: it in a.items && ItemKept(it) ==> it in r.items
    ensures forall m :: multiset(r.missiles)[m] == if MissileKept(m) then multiset(a.missiles)[m] else 0
    ensures forall o :: multiset(r.obstacles)[o] == if ObstacleKept(o) then multiset(a.obstacles)[o] else 0
    ensures forall it :: multiset(r.items)[it] == if ItemKept(it) then multiset(a.items)[it] else 0
  {
    Arena(a.players, Filter(a.items, ItemKept), Filter(a.missiles, MissileKept), Filter(a.obstacles, ObstacleKept))
  }

  /** Culling a second time removes nothing more. */
  lemma CleanupIdempotent(a: Arena)
    ensures CleanupOffscreen(CleanupOffscreen(a)) == CleanupOffscreen(a)
  {
    FilterIdempotent(a.items, ItemKept);
    FilterIdempotent(a.missiles, MissileKept);
    FilterIdempotent(a.obstacles, ObstacleKept);
  }

  /** Every element of a subsequence comes from the original sequence. */
  lemma {:induction false} SubsequenceElements<T>(r: seq<T>, s: seq<T>)
    requires IsSubsequence(r, s)
    ensures forall x :: x in r ==> x in s
    decreases |s|
  {
    if |r| > 0 && |s| > 0 {
      if r[0] == s[0] && IsSubsequence(r[1..], s[1..]) {
        SubsequenceElements(r[1..], s[1..]);
        assert forall x :: x in r ==> x == r[0] || x in r[1..];
      } else {
        SubsequenceElements(r, s[1..]);
      }
    }
  }
}

=== FILE: collisions.dfy ===
/**
 handleCollisions and its helpers. The pass runs in three phases, each a
 nested loop that updates records in place: players against item boxes,
 players against obstacles, and each missile against the obstacles and then
 the players.
 */
module Collisions {
  import opened Numeric
  import opened Geometry
  import opened Entities

  /** How long a player is invulnerable after a hit, in milliseconds. */
  const InvulnerableTime: real := 600.0

  /**
   damage: ignored while the player is invulnerable; otherwise the player
   loses `amt` lives and becomes invulnerable. Only lives and the
   invulnerability timer can change.
   */
  function Damage(p: Player, amt: int): (r: Player)
    ensures r.inv > 0.0
    ensures p.inv <= 0.0 ==> r.inv == InvulnerableTime
    ensures r == p <==> p.inv > 0.0
    ensures r.lives == p.lives - (if p.inv > 0.0 then 0 else amt)
    ensures r == p.(lives := r.lives, inv := r.inv)
  {
    if p.inv > 0.0 then p else p.(lives := p.lives - amt, inv := InvulnerableTime)
  }

  /**
   bounceFrom: push the player 12 units horizontally and 8 vertically away
   from the obstacle's centre, each axis on its own; a player level with the
   centre goes right or down.
   */
  function BounceFrom(p: Player, o: Obstacle): (r: Player)
    ensures Abs(r.x - o.x) == Abs(p.x - o.x) + 12.0 && (r.x < o.x <==> p.x < o.x)
    ensures Abs(r.y - o.y) == Abs(p.y - o.y) + 8.0 && (r.y < o.y <==> p.y < o.y)
    ensures r == p.(x := r.x, y := r.y)
  {
    var x := if p.x < o.x then p.x - 12.0 else p.x + 12.0;
    var y := if p.y < o.y then p.y - 8.0 else p.y + 8.0;
    p.(x := x, y := y)
  }

  /** A bounce can leave the playable rectangle the player step clamped to. */
  lemma BounceCanLeaveRectangle()
    ensures var p := MakePlayer(1, 40.0, 300.0, 3);
            BounceFrom(p, Obstacle(Rock, 50.0, 300.0, 24.0, 24.0, 999, false)).x == 28.0
  {
  }

  /**
   Between the start and the end of a pass the player took at most one hit:
   either lives and timer are as they were, or the player was vulnerable,
   lost one life and became invulnerable.
   */
  ghost predicate AtMostOneHit(p: Player, q: Player) {
    || (q.lives == p.lives && q.inv == p.inv)
    || (p.inv <= 0.0 && q.lives == p.lives - 1 && q.inv == InvulnerableTime)
  }

  /** After any first hit, later hits of the same pass are absorbed. */
  lemma {:induction false} AtMostOneHitAbsorbsDamage(p: Player, q: Player)
    requires AtMostOneHit(p, q)
    ensures AtMostOneHit(p, Damage(q, 1))
  {
    if q.inv > 0.0 {
      assert Damage(q, 1) == q;
    } else {
      assert q.lives == p.lives && q.inv == p.inv;
    }
  }

  // ---------------------------------------------------------------------------
  // Phase 1: players against item boxes.

  /** `k` is the first item box whose box overlaps `b`. */
  ghost predicate FirstOverlap(b: Box, items: seq<Item>, k: int) {
    && 0 <= k < |items|
    && Overlap(b, items[k].Bounds())
    && forall j :: 0 <= j < k ==> !Overlap(b, items[j].Bounds())
  }

  /**
   `q` is `p` after touching the item boxes: a player holding an item keeps
   it; an empty-handed one takes the reward of the first box it overlaps, or
   stays empty-handed if it overlaps none. Nothing else changes.
   */
  ghost predicate Granted(p: Player, items: seq<Item>, q: Player) {
    && q == p.(item := q.item)
    && (p.item.Some? ==> q.item == p.item)
    && (p.item.None? && q.item.None? ==> forall j :: 0 <= j < |items| ==> !Overlap(p.Bounds(), items[j].Bounds()))
    && (p.item.None? && q.item.Some? ==>
          exists k :: FirstOverlap(p.Bounds(), items, k) && q.item.value == items[k].reward)
  }

  /** One player against one item box: take it if empty-handed; the box is used up either way. */
  function Collect(p: Player, it: Item): (Player, Item) {
    if Overlap(p.Bounds(), it.Bounds()) then
      (if p.item.None? then p.(item := Some(it.reward)) else p, it.(dead := true))
    else (p, it)
  }

  /** One player against every item box, in order. */
  function CollectAll(p: Player, items: seq<Item>): (r: (Player, seq<Item>))
    ensures |r.1| == |items|
    ensures forall j :: 0 <= j < |items| ==>
      r.1[j] == items[j].(dead := items[j].dead || Overlap(p.Bounds(), items[j].Bounds()))
    ensures Granted(p, items, r.0)
    decreases |items|
  {
    if |items| == 0 then (p, [])
    else
      var (p1, it1) := Collect(p, items[0]);
      var (p2, rest) := CollectAll(p1, items[1..]);
      CollectAllGrants(p, items, p1, p2);
      (p2, [it1] + rest)
  }

  /** The step case of CollectAll's grant: the first box, then the rest. */
  lemma {:induction false} CollectAllGrants(p: Player, items: seq<Item>, p1: Player, p2: Player)
    requires |items| > 0
    requires p1 == Collect(p, items[0]).0
    requires Granted(p1, items[1..], p2)
    ensures Granted(p, items, p2)
  {
    var b := p.Bounds();
    assert p1.Bounds() == b;
    if p.item.None? && p2.item.Some? {
      if Overlap(b, items[0].Bounds()) {
        assert FirstOverlap(b, items, 0);
      } else {
        var k :| FirstOverlap(b, items[1..], k) && p2.item.value == items[1..][k].reward;
        assert FirstOverlap(b, items, k + 1);
      }
    }
  }

  /** Item boxes with the same extents and rewards grant the same. */
  lemma {:induction false} GrantedIgnoresDeadFlags(p: Player, items: seq<Item>, items': seq<Item>, q: Player)
    requires |items'| == |items|
    requires forall j :: 0 <= j < |items| ==> items'[j] == items[j].(dead := items'[j].dead)
    requires Granted(p, items', q)
    ensures Granted(p, items, q)
  {
    var b := p.Bounds();
    assert forall j :: 0 <= j < |items| ==> items'[j].Bounds() == items[j].Bounds();
    if p.item.None? && q.item.Some? {
      var k :| FirstOverlap(b, items', k) && q.item.value == items'[k].reward;
      assert FirstOverlap(b, items, k);
    }
  }

  /**
   Phase 1: each player in turn against every item box. Boxes already used up
   are not skipped, so two players touching one box in the same pass can
   both take its reward.
   */
  function PickupPhase(ps: seq<Player>, items: seq<Item>): (r: (seq<Player>, seq<Item>))
    ensures |r.0| == |ps| && |r.1| == |items|
    ensures forall i :: 0 <= i < |ps| ==> Granted(ps[i], items, r.0[i])
    ensures forall j :: 0 <= j < |items| ==>
      r.1[j] == items[j].(dead := items[j].dead || exists i :: 0 <= i < |ps| && Overlap(ps[i].Bounds(), items[j].Bounds()))
    decreases |ps|
  {
    if |ps| == 0 then ([], items)
    else
      var (p1, items1) := CollectAll(ps[0], items);
      var (rest, items2) := PickupPhase(ps[1..], items1);
      PickupPhaseSteps(ps, items, p1, items1, rest, items2);
      ([p1] + rest, items2)
  }

  lemma {:induction false} PickupPhaseSteps(ps: seq<Player>, items: seq<Item>, p1: Player, items1: seq<Item>,
                                            rest: seq<Player>, items2: seq<Item>)
    requires |ps| > 0
    requires (p1, items1) == CollectAll(ps[0], items)
    requires |rest| == |ps| - 1 && |items2| == |items1|
    requires forall i :: 0 <= i < |ps| - 1 ==> Granted(ps[1..][i], items1, rest[i])
    requires forall j :: 0 <= j < |items1| ==>
      items2[j] == items1[j].(dead := items1[j].dead || exists i :: 0 <= i < |ps| - 1 && Overlap(ps[1..][i].Bounds(), items1[j].Bounds()))
    ensures forall i :: 0 <= i < |ps| ==> Granted(ps[i], items, ([p1] + rest)[i])
    ensures forall j :: 0 <= j < |items| ==>
      items2[j] == items[j].(dead := items[j].dead || exists i :: 0 <= i < |ps| && Overlap(ps[i].Bounds(), items[j].Bounds()))
  {
    forall i | 0 <= i < |ps|
      ensures Granted(ps[i], items, ([p1] + rest)[i])
    {
      if i > 0 {
        GrantedIgnoresDeadFlags(ps[i], items, items1, rest[i - 1]);
      }
    }
    forall j | 0 <= j < |items|
      ensures items2[j] == items[j].(dead := items[j].dead || exists i :: 0 <= i < |ps| && Overlap(ps[i].Bounds(), items[j].Bounds()))
    {
      var b := items[j].Bounds();
      assert items1[j].Bounds() == b;
      if Overlap(ps[0].Bounds(), b) {
        assert exists i :: 0 <= i < |ps| && Overlap(ps[i].Bounds(), b);
      }
      if exists i :: 0 <= i < |ps| - 1 && Overlap(ps[1..][i].Bounds(), b) {
        var i :| 0 <= i < |ps| - 1 && Overlap(ps[1..][i].Bounds(), b);
        assert Overlap(ps[i + 1].Bounds(), b);
      }
      if exists i :: 0 <= i < |ps| && Overlap(ps[i].Bounds(), b) {
        var i :| 0 <= i < |ps| && Overlap(ps[i].Bounds(), b);
        if i > 0 {
          assert Overlap(ps[1..][i - 1].Bounds(), b);
        }
      }
    }
  }

  /** Two empty-handed players touching one box in the same pass both take its reward. */
  lemma PickupCanGrantTwice()
    ensures var box := Item(100.0, 100.0, 20.0, 20.0, Sides, false);
            var r := PickupPhase([MakePlayer(1, 100.0, 100.0, 3), MakePlayer(2, 105.0, 100.0, 3)], [box]);
            r.0[0].item == Some(Sides) && r.0[1].item == Some(Sides) && r.1[0].dead
  {
  }

  // ---------------------------------------------------------------------------
  // Phase 2: players against obstacles.

  /** One player against one obstacle: walls and rocks hurt and bounce, spikes only hurt. */
  function Collide(p: Player, o: Obstacle): (r: Player)
    ensures !Overlap(p.Bounds(), o.Bounds()) ==> r == p
    ensures Overlap(p.Bounds(), o.Bounds()) ==>
      && r.lives == p.lives - (if p.inv > 0.0 then 0 else 1)
      && r.inv == (if p.inv > 0.0 then p.inv else InvulnerableTime)
    ensures Overlap(p.Bounds(), o.Bounds()) && o.kind == Spike ==> r.x == p.x && r.y == p.y
    ensures Overlap(p.Bounds(), o.Bounds()) && o.kind != Spike ==>
      && Abs(r.x - o.x) == Abs(p.x - o.x) + 12.0 && (r.x < o.x <==> p.x < o.x)
      && Abs(r.y - o.y) == Abs(p.y - o.y) + 8.0 && (r.y < o.y <==> p.y < o.y)
    ensures r == p.(x := r.x, y := r.y, lives := r.lives, inv := r.inv)
  {
    if !Overlap(p.Bounds(), o.Bounds()) then p
    else match o.kind
      case Spike => Damage(p, 1)
      case _ => BounceFrom(Damage(p, 1), o)
  }

  /** One player against every obstacle, in order; the position used is the bounced one so far. */
  function CollideAll(p: Player, obs: seq<Obstacle>): (r: Player)
    ensures AtMostOneHit(p, r)
    ensures r == p.(x := r.x, y := r.y, lives := r.lives, inv := r.inv)
    ensures (forall j :: 0 <= j < |obs| ==> !Overlap(p.Bounds(), obs[j].Bounds())) ==> r == p
    decreases |obs|
  {
    if |obs| == 0 then p
    else CollideAll(Collide(p, obs[0]), obs[1..])
  }

  /** What the player holds plays no part in the obstacle pass. */
  lemma {:induction false} CollideAllIgnoresItem(p: Player, v: Option<Reward>, obs: seq<Obstacle>)
    ensures CollideAll(p.(item := v), obs) == CollideAll(p, obs).(item := v)
    decreases |obs|
  {
    if |obs| > 0 {
      assert Collide(p.(item := v), obs[0]) == Collide(p, obs[0]).(item := v);
      CollideAllIgnoresItem(Collide(p, obs[0]), v, obs[1..]);
    }
  }

  /** The player, where it stands, overlaps some obstacle. */
  predicate Touches(p: Player, obs: seq<Obstacle>) {
    exists j :: 0 <= j < |obs| && Overlap(p.Bounds(), obs[j].Bounds())
  }

  /**
   A vulnerable player whose first contact is obstacle `k` loses exactly one
   life and becomes invulnerable; the obstacles after it are absorbed.
   */
  lemma {:induction false} FirstContactHurts(p: Player, obs: seq<Obstacle>, k: int)
    requires p.inv <= 0.0
    requires 0 <= k < |obs| && Overlap(p.Bounds(), obs[k].Bounds())
    requires forall j :: 0 <= j < k ==> !Overlap(p.Bounds(), obs[j].Bounds())
    ensures CollideAll(p, obs).lives == p.lives - 1 && CollideAll(p, obs).inv == InvulnerableTime
    decreases k
  {
    if k == 0 {
      var q := Collide(p, obs[0]);
      assert AtMostOneHit(q, CollideAll(q, obs[1..]));
    } else {
      assert Collide(p, obs[0]) == p;
      FirstContactHurts(p, obs[1..], k - 1);
    }
  }

  /**
   A player whose first contact is obstacle `k`, and whom that contact leaves
   clear of every later obstacle, ends exactly as that one contact left it:
   hurt, and pushed away unless the obstacle is a spike.
   */
  lemma {:induction false} FirstContactBounces(p: Player, obs: seq<Obstacle>, k: int)
    requires 0 <= k < |obs| && Overlap(p.Bounds(), obs[k].Bounds())
    requires forall j :: 0 <= j < k ==> !Overlap(p.Bounds(), obs[j].Bounds())
    requires forall j :: k < j < |obs| ==> !Overlap(Collide(p, obs[k]).Bounds(), obs[j].Bounds())
    ensures obs[k].kind != Spike ==> CollideAll(p, obs) == BounceFrom(Damage(p, 1), obs[k])
    ensures obs[k].kind == Spike ==> CollideAll(p, obs) == Damage(p, 1)
    decreases k
  {
    if k == 0 {
      var q := Collide(p, obs[0]);
      assert forall j :: 0 <= j < |obs| - 1 ==> !Overlap(q.Bounds(), obs[1..][j].Bounds()) by {
        forall j | 0 <= j < |obs| - 1
          ensures !Overlap(q.Bounds(), obs[1..][j].Bounds())
        {
          assert obs[1..][j] == obs[j + 1];
        }
      }
    } else {
      assert Collide(p, obs[0]) == p;
      FirstContactBounces(p, obs[1..], k - 1);
    }
  }

  /** A vulnerable player loses a life against the obstacles exactly when it touches one. */
  lemma {:induction false} ContactHurtsVulnerable(p: Player, obs: seq<Obstacle>)
    requires p.inv <= 0.0
    ensures Touches(p, obs) ==> CollideAll(p, obs).lives == p.lives - 1 && CollideAll(p, obs).inv == InvulnerableTime
    ensures !Touches(p, obs) ==> CollideAll(p, obs) == p
    decreases |obs|
  {
    if |obs| > 0 {
      if Overlap(p.Bounds(), obs[0].Bounds()) {
        FirstContactHurts(p, obs, 0);
      } else {
        assert Collide(p, obs[0]) == p;
        ContactHurtsVulnerable(p, obs[1..]);
        if Touches(p, obs) {
          var j :| 0 <= j < |obs| && Overlap(p.Bounds(), obs[j].Bounds());
          assert Overlap(p.Bounds(), obs[1..][j - 1].Bounds());
        }
      }
    }
  }

  /** Spikes only hurt: against spikes alone the player is never moved. */
  lemma {:induction false} SpikesNeverBounce(p: Player, obs: seq<Obstacle>)
    requires forall j :: 0 <= j < |obs| ==> obs[j].kind == Spike
    ensures CollideAll(p, obs).x == p.x && CollideAll(p, obs).y == p.y
    decreases |obs|
  {
    if |obs| > 0 {
      SpikesNeverBounce(Collide(p, obs[0]), obs[1..]);
    }
  }

  /** Phase 2: every player against every obstacle. */
  function ObstaclePhase(ps: seq<Player>, obs: seq<Obstacle>): (r: seq<Player>)
    ensures |r| == |ps|
    ensures forall i :: 0 <= i < |ps| ==> r[i] == CollideAll(ps[i], obs)
  {
    seq(|ps|, i requires 0 <= i < |ps| => CollideAll(ps[i], obs))
  }

  // ---------------------------------------------------------------------------
  // Phase 3: missiles against obstacles, then against players.

  /** A live obstacle under the missile's hit box is struck. */
  predicate Struck(m: Missile, o: Obstacle) {
    !o.dead && Overlap(m.HitBox(), o.Bounds())
  }

  /** A struck obstacle loses a hit point; only a wall dies, once its hit points are gone. */
  function Chip(o: Obstacle): Obstacle {
    var hp := o.hp - 1;
    o.(hp := hp, dead := if hp <= 0 && o.kind == Wall then true else o.dead)
  }

  /**
   `q` is `o` after any number of missile hits: only hit points and the dead
   flag change, hit points never rise, a dead obstacle is left alone, only a
   wall can die, and the hit-point discipline is kept.
   */
  ghost predicate Wears(o: Obstacle, q: Obstacle) {
    && q == o.(hp := q.hp, dead := q.dead)
    && q.hp <= o.hp
    && (o.dead ==> q == o)
    && (o.kind != Wall ==> q.dead == o.dead)
    && (ObstacleOk(o) ==> ObstacleOk(q))
  }

  /** A strike removes exactly one hit point and kills exactly the walls it empties. */
  lemma StrikeChipsOnePoint(m: Missile, o: Obstacle)
    requires Struck(m, o)
    ensures Chip(o).hp == o.hp - 1
    ensures Chip(o).dead <==> o.kind == Wall && o.hp <= 1
    ensures Wears(o, Chip(o))
  {
  }

  /** One missile against one obstacle: a strike chips the obstacle and kills the missile. */
  function Shoot(m: Missile, o: Obstacle): (Missile, Obstacle) {
    if Struck(m, o) then (m.(dead := true), Chip(o)) else (m, o)
  }

  /** Some obstacle is struck exactly when the first one is or one of the rest is. */
  lemma {:induction false} StruckSplit(m: Missile, obs: seq<Obstacle>)
    requires |obs| > 0
    ensures (exists j :: 0 <= j < |obs| && Struck(m, obs[j])) <==>
            Struck(m, obs[0]) || exists j :: 0 <= j < |obs| - 1 && Struck(m, obs[1..][j])
  {
    if exists j :: 0 <= j < |obs| && Struck(m, obs[j]) {
      var j :| 0 <= j < |obs| && Struck(m, obs[j]);
      if j > 0 { assert Struck(m, obs[1..][j - 1]); }
    }
    if exists j :: 0 <= j < |obs| - 1 && Struck(m, obs[1..][j]) {
      var j :| 0 <= j < |obs| - 1 && Struck(m, obs[1..][j]);
      assert Struck(m, obs[j + 1]);
    }
  }

  /**
   One missile against every obstacle, in order. The missile keeps striking
   after its first hit: being marked dead does not stop the loop.
   */
  function ShootAll(m: Missile, obs: seq<Obstacle>): (r: (Missile, seq<Obstacle>))
    ensures |r.1| == |obs|
    ensures forall j :: 0 <= j < |obs| ==> r.1[j] == if Struck(m, obs[j]) then Chip(obs[j]) else obs[j]
    ensures r.0 == m.(dead := m.dead || exists j :: 0 <= j < |obs| && Struck(m, obs[j]))
    decreases |obs|
  {
    if |obs| == 0 then (m, [])
    else
      var (m1, o1) := Shoot(m, obs[0]);
      var (m2, rest) := ShootAll(m1, obs[1..]);
      assert m1.HitBox() == m.HitBox();
      StruckSplit(m, obs);
      (m2, [o1] + rest)
  }

  /** A fresh wall survives its first strike with one hit point and dies on the second. */
  lemma WallFallsOnSecondStrike()
    ensures var wall := Obstacle(Wall, 100.0, 100.0, 24.0, 24.0, 2, false);
            var m := Missile(1, 106.0, 106.0, 1.0, 0.0, 0.6, 6.0, false);
            var once := ShootAll(m, [wall]);
            var twice := ShootAll(m, once.1);
            && once.0.dead && once.1[0].hp == 1 && !once.1[0].dead
            && twice.1[0].hp == 0 && twice.1[0].dead
  {
  }

  /** The missile hits a player other than its owner. */
  predicate Targets(m: Missile, p: Player) {
    p.id != m.owner && Overlap(m.HitBox(), p.Bounds())
  }

  function Strike(m: Missile, p: Player): (Missile, Player) {
    if Targets(m, p) then (m.(dead := true), Damage(p, 1)) else (m, p)
  }

  /** Some player is targeted exactly when the first one is or one of the rest is. */
  lemma {:induction false} TargetsSplit(m: Missile, ps: seq<Player>)
    requires |ps| > 0
    ensures (exists i :: 0 <= i < |ps| && Targets(m, ps[i])) <==>
            Targets(m, ps[0]) || exists i :: 0 <= i < |ps| - 1 && Targets(m, ps[1..][i])
  {
    if exists i :: 0 <= i < |ps| && Targets(m, ps[i]) {
      var i :| 0 <= i < |ps| && Targets(m, ps[i]);
      if i > 0 { assert Targets(m, ps[1..][i - 1]); }
    }
    if exists i :: 0 <= i < |ps| - 1 && Targets(m, ps[1..][i]) {
      var i :| 0 <= i < |ps| - 1 && Targets(m, ps[1..][i]);
      assert Targets(m, ps[i + 1]);
    }
  }

  /** One missile against every player, in order; its owner is never hit. */
  function StrikeAll(m: Missile, ps: seq<Player>): (r: (Missile, seq<Player>))
    ensures |r.1| == |ps|
    ensures forall i :: 0 <= i < |ps| ==> r.1[i] == if Targets(m, ps[i]) then Damage(ps[i], 1) else ps[i]
    ensures forall i :: 0 <= i < |ps| && ps[i].id == m.owner ==> r.1[i] == ps[i]
    ensures r.0 == m.(dead := m.dead || exists i :: 0 <= i < |ps| && Targets(m, ps[i]))
    decreases |ps|
  {
    if |ps| == 0 then (m, [])
    else
      var (m1, p1) := Strike(m, ps[0]);
      var (m2, rest) := StrikeAll(m1, ps[1..]);
      assert m1.HitBox() == m.HitBox();
      TargetsSplit(m, ps);
      (m2, [p1] + rest)
  }

  /** The missile's hit box covers some player other than its owner. */
  predicate HitsSomeone(m: Missile, ps: seq<Player>) {
    exists i :: 0 <= i < |ps| && Targets(m, ps[i])
  }

  /** Some missile not fired by the player covers it. */
  predicate TargetedBy(p: Player, ms: seq<Missile>) {
    exists k :: 0 <= k < |ms| && Targets(ms[k], p)
  }

  /** Some missile's hit box covers the obstacle, live or not. */
  predicate UnderFire(o: Obstacle, ms: seq<Missile>) {
    exists k :: 0 <= k < |ms| && Overlap(ms[k].HitBox(), o.Bounds())
  }

  /** The missile strikes some live obstacle. */
  predicate StrikesSomething(m: Missile, obs: seq<Obstacle>) {
    exists j :: 0 <= j < |obs| && Struck(m, obs[j])
  }

  datatype Shot = Shot(missiles: seq<Missile>, obstacles: seq<Obstacle>, players: seq<Player>)

  /**
   Phase 3: each missile against the obstacles, then the players. Over the
   phase, missiles only ever gain the dead flag, obstacles only wear, each
   player takes at most one hit, and a player hit by no foreign missile is
   untouched. A missile dies on a rock or spike it strikes, and on any
   obstacle it is the first to cover; an obstacle nothing covers is left
   alone.
   */
  function MissilePhase(ms: seq<Missile>, obs: seq<Obstacle>, ps: seq<Player>): (r: Shot)
    ensures |r.missiles| == |ms| && |r.obstacles| == |obs| && |r.players| == |ps|
    ensures forall k :: 0 <= k < |ms| ==>
      r.missiles[k] == ms[k].(dead := r.missiles[k].dead) && (ms[k].dead ==> r.missiles[k].dead)
    ensures forall j :: 0 <= j < |obs| ==> Wears(obs[j], r.obstacles[j])
    ensures forall i :: 0 <= i < |ps| ==>
      AtMostOneHit(ps[i], r.players[i]) && r.players[i] == ps[i].(lives := r.players[i].lives, inv := r.players[i].inv)
    ensures forall i :: 0 <= i < |ps| && (forall k :: 0 <= k < |ms| ==> ms[k].owner == ps[i].id) ==>
      r.players[i] == ps[i]
    ensures forall k :: 0 <= k < |ms| && HitsSomeone(ms[k], ps) ==> r.missiles[k].dead
    ensures forall i :: 0 <= i < |ps| && ps[i].inv <= 0.0 && TargetedBy(ps[i], ms) ==>
      r.players[i].lives == ps[i].lives - 1 && r.players[i].inv == InvulnerableTime
    ensures forall i :: 0 <= i < |ps| && !TargetedBy(ps[i], ms) ==> r.players[i] == ps[i]
    ensures forall k, j :: 0 <= k < |ms| && 0 <= j < |obs| && obs[j].kind != Wall && Struck(ms[k], obs[j]) ==>
      r.missiles[k].dead
    ensures forall k, j :: 0 <= k < |ms| && 0 <= j < |obs| && Struck(ms[k], obs[j]) && !UnderFire(obs[j], ms[..k]) ==>
      r.missiles[k].dead
    ensures forall j :: 0 <= j < |obs| && !UnderFire(obs[j], ms) ==> r.obstacles[j] == obs[j]
    ensures forall j :: 0 <= j < |obs| && !obs[j].dead && UnderFire(obs[j], ms) ==> r.obstacles[j].hp < obs[j].hp
    ensures forall k :: 0 <= k < |ms| && !HitsSomeone(ms[k], ps) && !StrikesSomething(ms[k], obs) ==> r.missiles[k] == ms[k]
    decreases |ms|
  {
    if |ms| == 0 then Shot([], obs, ps)
    else
      var (m1, obs1) := ShootAll(ms[0], obs);
      var (m2, ps1) := StrikeAll(m1, ps);
      var rest := MissilePhase(ms[1..], obs1, ps1);
      MissilePhaseSteps(ms, obs, ps, m1, obs1, ps1, rest);
      MissilesDieOnHit(ms, ps, m1, m2, ps1, rest.missiles);
      PlayersHitSteps(ms, ps, m1, ps1, rest.players);
      MissilesStopAtObstacles(ms, obs, m1, obs1, m2, rest.missiles);
      ObstaclesWearSteps(ms, obs, obs1, rest.obstacles);
      MissilesSurviveSteps(ms, obs, ps, m1, obs1, m2, ps1, rest.missiles);
      Shot([m2] + rest.missiles, rest.obstacles, rest.players)
  }

  /**
   The step case of MissilePhase's obstacle rule for missiles: a strike on a
   rock or spike, or on an obstacle no earlier missile has covered, kills the
   missile.
   */
  lemma {:induction false} MissilesStopAtObstacles(ms: seq<Missile>, obs: seq<Obstacle>, m1: Missile, obs1: seq<Obstacle>,
                                                   m2: Missile, rest: seq<Missile>)
    requires |ms| > 0
    requires (m1, obs1) == ShootAll(ms[0], obs)
    requires m2 == m1.(dead := m2.dead) && (m1.dead ==> m2.dead)
    requires |rest| == |ms| - 1
    requires forall k, j :: 0 <= k < |ms| - 1 && 0 <= j < |obs1| && obs1[j].kind != Wall && Struck(ms[1..][k], obs1[j]) ==>
      rest[k].dead
    requires forall k, j :: 0 <= k < |ms| - 1 && 0 <= j < |obs1| && Struck(ms[1..][k], obs1[j]) && !UnderFire(obs1[j], ms[1..][..k]) ==>
      rest[k].dead
    ensures forall k, j :: 0 <= k < |ms| && 0 <= j < |obs| && obs[j].kind != Wall && Struck(ms[k], obs[j]) ==>
      ([m2] + rest)[k].dead
    ensures forall k, j :: 0 <= k < |ms| && 0 <= j < |obs| && Struck(ms[k], obs[j]) && !UnderFire(obs[j], ms[..k]) ==>
      ([m2] + rest)[k].dead
  {
    forall k, j | 0 <= k < |ms| && 0 <= j < |obs| && Struck(ms[k], obs[j])
      ensures obs[j].kind != Wall ==> ([m2] + rest)[k].dead
      ensures !UnderFire(obs[j], ms[..k]) ==> ([m2] + rest)[k].dead
    {
      if k == 0 {
        assert m1.dead;
      } else {
        var o, o1 := obs[j], obs1[j];
        assert o1.Bounds() == o.Bounds() && o1.kind == o.kind;
        assert ms[1..][k - 1] == ms[k];
        if o.kind != Wall {
          assert Struck(ms[1..][k - 1], o1);
        }
        if !UnderFire(o, ms[..k]) {
          assert ms[..k][0] == ms[0];
          assert !Struck(ms[0], o);
          assert o1 == o;
          var earlier := ms[1..][..k - 1];
          assert forall l :: 0 <= l < |earlier| ==> earlier[l] == ms[..k][l + 1];
          assert !UnderFire(o1, earlier);
        }
      }
    }
  }

  /**
   The step case of MissilePhase's survival rule: a missile that strikes no
   obstacle and covers no foreign player is left as it was. Earlier missiles
   only chip obstacles and hurt players, which moves no box.
   */
  lemma {:induction false} MissilesSurviveSteps(ms: seq<Missile>, obs: seq<Obstacle>, ps: seq<Player>,
                                                m1: Missile, obs1: seq<Obstacle>, m2: Missile, ps1: seq<Player>,
                                                rest: seq<Missile>)
    requires |ms| > 0
    requires (m1, obs1) == ShootAll(ms[0], obs)
    requires (m2, ps1) == StrikeAll(m1, ps)
    requires |rest| == |ms| - 1
    requires forall k :: 0 <= k < |ms| - 1 && !HitsSomeone(ms[1..][k], ps1) && !StrikesSomething(ms[1..][k], obs1) ==>
      rest[k] == ms[1..][k]
    ensures forall k :: 0 <= k < |ms| && !HitsSomeone(ms[k], ps) && !StrikesSomething(ms[k], obs) ==>
      ([m2] + rest)[k] == ms[k]
  {
    assert m1.HitBox() == ms[0].HitBox() && m1.owner == ms[0].owner;
    forall k | 0 <= k < |ms| && !HitsSomeone(ms[k], ps) && !StrikesSomething(ms[k], obs)
      ensures ([m2] + rest)[k] == ms[k]
    {
      if k == 0 {
        assert m1 == ms[0];
        assert forall i :: 0 <= i < |ps| ==> !Targets(m1, ps[i]);
      } else {
        var x := ms[k];
        assert ms[1..][k - 1] == x;
        assert !HitsSomeone(x, ps1) by {
          forall i | 0 <= i < |ps1|
            ensures !Targets(x, ps1[i])
          {
            assert ps1[i].Bounds() == ps[i].Bounds() && ps1[i].id == ps[i].id;
            assert !Targets(x, ps[i]);
          }
        }
        assert !StrikesSomething(x, obs1) by {
          forall j | 0 <= j < |obs1|
            ensures !Struck(x, obs1[j])
          {
            assert obs1[j].Bounds() == obs[j].Bounds();
            assert !Struck(x, obs[j]);
          }
        }
      }
    }
  }

  /**
   The step case of MissilePhase's obstacle rule for obstacles: one no
   missile covers is untouched, and a live one some missile covers loses a
   hit point.
   */
  lemma {:induction false} ObstaclesWearSteps(ms: seq<Missile>, obs: seq<Obstacle>, obs1: seq<Obstacle>, rest: seq<Obstacle>)
    requires |ms| > 0
    requires obs1 == ShootAll(ms[0], obs).1
    requires |rest| == |obs1|
    requires forall j :: 0 <= j < |obs1| ==> Wears(obs1[j], rest[j])
    requires forall j :: 0 <= j < |obs1| && !UnderFire(obs1[j], ms[1..]) ==> rest[j] == obs1[j]
    requires forall j :: 0 <= j < |obs1| && !obs1[j].dead && UnderFire(obs1[j], ms[1..]) ==> rest[j].hp < obs1[j].hp
    ensures forall j :: 0 <= j < |obs| && !UnderFire(obs[j], ms) ==> rest[j] == obs[j]
    ensures forall j :: 0 <= j < |obs| && !obs[j].dead && UnderFire(obs[j], ms) ==> rest[j].hp < obs[j].hp
  {
    forall j | 0 <= j < |obs|
      ensures !UnderFire(obs[j], ms) ==> rest[j] == obs[j]
      ensures !obs[j].dead && UnderFire(obs[j], ms) ==> rest[j].hp < obs[j].hp
    {
      ObstacleWearStep(ms, obs[j], obs1[j], rest[j]);
    }
  }

  /** ObstaclesWearSteps for one obstacle. */
  lemma {:induction false} ObstacleWearStep(ms: seq<Missile>, o: Obstacle, o1: Obstacle, q: Obstacle)
    requires |ms| > 0
    requires o1 == if Struck(ms[0], o) then Chip(o) else o
    requires Wears(o1, q)
    requires !UnderFire(o1, ms[1..]) ==> q == o1
    requires !o1.dead && UnderFire(o1, ms[1..]) ==> q.hp < o1.hp
    ensures !UnderFire(o, ms) ==> q == o
    ensures !o.dead && UnderFire(o, ms) ==> q.hp < o.hp
  {
    assert o1.Bounds() == o.Bounds();
    if !Struck(ms[0], o) {
      if UnderFire(o, ms[1..]) {
        var k :| 0 <= k < |ms| - 1 && Overlap(ms[1..][k].HitBox(), o.Bounds());
        assert Overlap(ms[k + 1].HitBox(), o.Bounds());
      }
      if UnderFire(o, ms) && !o.dead {
        var k :| 0 <= k < |ms| && Overlap(ms[k].HitBox(), o.Bounds());
        assert Overlap(ms[1..][k - 1].HitBox(), o.Bounds());
      }
    } else {
      assert Overlap(ms[0].HitBox(), o.Bounds());
    }
  }

  /** The step case of MissilePhase's missile rule: a missile that covers a player dies. */
  lemma {:induction false} MissilesDieOnHit(ms: seq<Missile>, ps: seq<Player>, m1: Missile, m2: Missile,
                                            ps1: seq<Player>, rest: seq<Missile>)
    requires |ms| > 0
    requires m1 == ms[0].(dead := m1.dead)
    requires (m2, ps1) == StrikeAll(m1, ps)
    requires |rest| == |ms| - 1
    requires forall k :: 0 <= k < |ms| - 1 && HitsSomeone(ms[1..][k], ps1) ==> rest[k].dead
    ensures forall k :: 0 <= k < |ms| && HitsSomeone(ms[k], ps) ==> ([m2] + rest)[k].dead
  {
    assert m1.HitBox() == ms[0].HitBox() && m1.owner == ms[0].owner;
    forall k | 0 <= k < |ms| && HitsSomeone(ms[k], ps)
      ensures ([m2] + rest)[k].dead
    {
      var i :| 0 <= i < |ps| && Targets(ms[k], ps[i]);
      if k > 0 {
        assert ps1[i].Bounds() == ps[i].Bounds() && ps1[i].id == ps[i].id;
        assert Targets(ms[1..][k - 1], ps1[i]);
        assert HitsSomeone(ms[1..][k - 1], ps1);
      } else {
        assert Targets(m1, ps[i]);
      }
    }
  }

  /** The step case of MissilePhase's player rules: the first missile, then the rest. */
  lemma {:induction false} PlayersHitSteps(ms: seq<Missile>, ps: seq<Player>, m1: Missile,
                                           ps1: seq<Player>, rest: seq<Player>)
    requires |ms| > 0
    requires m1 == ms[0].(dead := m1.dead)
    requires ps1 == StrikeAll(m1, ps).1
    requires |rest| == |ps1|
    requires forall i :: 0 <= i < |ps1| ==> AtMostOneHit(ps1[i], rest[i])
    requires forall i :: 0 <= i < |ps1| && ps1[i].inv <= 0.0 && TargetedBy(ps1[i], ms[1..]) ==>
      rest[i].lives == ps1[i].lives - 1 && rest[i].inv == InvulnerableTime
    requires forall i :: 0 <= i < |ps1| && !TargetedBy(ps1[i], ms[1..]) ==> rest[i] == ps1[i]
    ensures forall i :: 0 <= i < |ps| && ps[i].inv <= 0.0 && TargetedBy(ps[i], ms) ==>
      rest[i].lives == ps[i].lives - 1 && rest[i].inv == InvulnerableTime
    ensures forall i :: 0 <= i < |ps| && !TargetedBy(ps[i], ms) ==> rest[i] == ps[i]
  {
    forall i | 0 <= i < |ps|
      ensures ps[i].inv <= 0.0 && TargetedBy(ps[i], ms) ==>
        rest[i].lives == ps[i].lives - 1 && rest[i].inv == InvulnerableTime
      ensures !TargetedBy(ps[i], ms) ==> rest[i] == ps[i]
    {
      PlayerHitStep(ms, ps[i], m1, ps1[i], rest[i]);
    }
  }

  /** PlayersHitSteps for one player. */
  lemma {:induction false} PlayerHitStep(ms: seq<Missile>, p: Player, m1: Missile, p1: Player, q: Player)
    requires |ms| > 0
    requires m1 == ms[0].(dead := m1.dead)
    requires p1 == if Targets(m1, p) then Damage(p, 1) else p
    requires AtMostOneHit(p1, q)
    requires p1.inv <= 0.0 && TargetedBy(p1, ms[1..]) ==> q.lives == p1.lives - 1 && q.inv == InvulnerableTime
    requires !TargetedBy(p1, ms[1..]) ==> q == p1
    ensures p.inv <= 0.0 && TargetedBy(p, ms) ==> q.lives == p.lives - 1 && q.inv == InvulnerableTime
    ensures !TargetedBy(p, ms) ==> q == p
  {
    assert m1.HitBox() == ms[0].HitBox() && m1.owner == ms[0].owner;
    if Targets(m1, p) {
      assert Targets(ms[0], p);
    } else {
      assert !Targets(ms[0], p);
      if TargetedBy(p, ms) {
        var k :| 0 <= k < |ms| && Targets(ms[k], p);
        assert Targets(ms[1..][k - 1], p1);
      }
      if TargetedBy(p1, ms[1..]) {
        var k :| 0 <= k < |ms| - 1 && Targets(ms[1..][k], p1);
        assert Targets(ms[k + 1], p);
      }
    }
  }

  lemma {:induction false} MissilePhaseSteps(ms: seq<Missile>, obs: seq<Obstacle>, ps: seq<Player>,
                                             m1: Missile, obs1: seq<Obstacle>, ps1: seq<Player>, rest: Shot)
    requires |ms| > 0
    requires (m1, obs1) == ShootAll(ms[0], obs)
    requires ps1 == StrikeAll(m1, ps).1
    requires |rest.obstacles| == |obs1| && |rest.players| == |ps1|
    requires forall j :: 0 <= j < |obs1| ==> Wears(obs1[j], rest.obstacles[j])
    requires forall i :: 0 <= i < |ps1| ==>
      AtMostOneHit(ps1[i], rest.players[i]) && rest.players[i] == ps1[i].(lives := rest.players[i].lives, inv := rest.players[i].inv)
    requires forall i :: 0 <= i < |ps1| && (forall k :: 0 <= k < |ms| - 1 ==> ms[1..][k].owner == ps1[i].id) ==>
      rest.players[i] == ps1[i]
    ensures forall j :: 0 <= j < |obs| ==> Wears(obs[j], rest.obstacles[j])
    ensures forall i :: 0 <= i < |ps| ==>
      AtMostOneHit(ps[i], rest.players[i]) && rest.players[i] == ps[i].(lives := rest.players[i].lives, inv := rest.players[i].inv)
    ensures forall i :: 0 <= i < |ps| && (forall k :: 0 <= k < |ms| ==> ms[k].owner == ps[i].id) ==>
      rest.players[i] == ps[i]
  {
    forall j | 0 <= j < |obs|
      ensures Wears(obs[j], rest.obstacles[j])
    {
      if Struck(ms[0], obs[j]) {
        StrikeChipsOnePoint(ms[0], obs[j]);
      }
    }
    forall i | 0 <= i < |ps|
      ensures AtMostOneHit(ps[i], rest.players[i])
      ensures rest.players[i] == ps[i].(lives := rest.players[i].lives, inv := rest.players[i].inv)
    {
      if Targets(m1, ps[i]) {
        if ps[i].inv > 0.0 {
          assert ps1[i] == ps[i];
        } else {
          assert rest.players[i].inv == ps1[i].inv == InvulnerableTime;
        }
      }
    }
    forall i | 0 <= i < |ps| && (forall k :: 0 <= k < |ms| ==> ms[k].owner == ps[i].id)
      ensures rest.players[i] == ps[i]
    {
      assert m1.owner == ms[0].owner;
      assert forall k :: 0 <= k < |ms| - 1 ==> ms[1..][k].owner == ms[k + 1].owner;
    }
  }

  /** handleCollisions: the three phases in order. */
  function HandleCollisions(a: Arena): (r: Arena)
    ensures |r.players| == |a.players| && |r.items| == |a.items|
    ensures |r.missiles| == |a.missiles| && |r.obstacles| == |a.obstacles|
    ensures forall i :: 0 <= i < |a.players| ==> AtMostOneHit(a.players[i], r.players[i])
    ensures forall i :: 0 <= i < |a.players| ==> r.players[i].id == a.players[i].id
    ensures forall i :: 0 <= i < |a.players| ==> Granted(a.players[i], a.items, a.players[i].(item := r.players[i].item))
    ensures forall j :: 0 <= j < |a.items| ==>
      r.items[j] == a.items[j].(dead := a.items[j].dead || exists i :: 0 <= i < |a.players| && Overlap(a.players[i].Bounds(), a.items[j].Bounds()))
    ensures forall j :: 0 <= j < |a.obstacles| ==> Wears(a.obstacles[j], r.obstacles[j])
    ensures forall k :: 0 <= k < |a.missiles| ==>
      r.missiles[k] == a.missiles[k].(dead := r.missiles[k].dead) && (a.missiles[k].dead ==> r.missiles[k].dead)
    ensures forall i :: 0 <= i < |a.players| && a.players[i].inv <= 0.0 && Touches(a.players[i], a.obstacles) ==>
      r.players[i].lives == a.players[i].lives - 1 && r.players[i].inv == InvulnerableTime
    ensures forall i :: 0 <= i < |a.players| && a.players[i].inv <= 0.0 && !Touches(a.players[i], a.obstacles)
                        && TargetedBy(a.players[i], a.missiles) ==>
      r.players[i].lives == a.players[i].lives - 1 && r.players[i].inv == InvulnerableTime
    ensures forall i :: 0 <= i < |a.players| && !Touches(a.players[i], a.obstacles) && !TargetedBy(a.players[i], a.missiles) ==>
      r.players[i] == a.players[i].(item := r.players[i].item)
    ensures forall i :: 0 <= i < |a.players| ==>
      r.players[i].x == CollideAll(a.players[i], a.obstacles).x && r.players[i].y == CollideAll(a.players[i], a.obstacles).y
  {
    PassPlayers(a);
    PassField(a);
    Pass(a)
  }

  /** The three phases in order, as handleCollisions runs them. */
  function Pass(a: Arena): Arena {
    var (ps1, items1) := PickupPhase(a.players, a.items);
    var ps2 := ObstaclePhase(ps1, a.obstacles);
    var shot := MissilePhase(a.missiles, a.obstacles, ps2);
    Arena(shot.players, items1, shot.missiles, shot.obstacles)
  }

  /** HandleCollisions' rules for item boxes, obstacles and missiles, over the phases. */
  lemma PassField(a: Arena)
    ensures var r := Pass(a);
            && |r.items| == |a.items| && |r.missiles| == |a.missiles| && |r.obstacles| == |a.obstacles|
            && (forall j :: 0 <= j < |a.items| ==>
                  r.items[j] == a.items[j].(dead := a.items[j].dead || exists i :: 0 <= i < |a.players| && Overlap(a.players[i].Bounds(), a.items[j].Bounds())))
            && (forall j :: 0 <= j < |a.obstacles| ==> Wears(a.obstacles[j], r.obstacles[j]))
            && (forall k :: 0 <= k < |a.missiles| ==>
                  r.missiles[k] == a.missiles[k].(dead := r.missiles[k].dead) && (a.missiles[k].dead ==> r.missiles[k].dead))
  {
  }

  /** HandleCollisions' rules for the players, over the phases. */
  lemma PassPlayers(a: Arena)
    ensures var r := Pass(a);
            && |r.players| == |a.players|
            && (forall i :: 0 <= i < |a.players| ==> AtMostOneHit(a.players[i], r.players[i]))
            && (forall i :: 0 <= i < |a.players| ==> r.players[i].id == a.players[i].id)
            && (forall i :: 0 <= i < |a.players| ==> Granted(a.players[i], a.items, a.players[i].(item := r.players[i].item)))
            && (forall i :: 0 <= i < |a.players| && a.players[i].inv <= 0.0 && Touches(a.players[i], a.obstacles) ==>
                  r.players[i].lives == a.players[i].lives - 1 && r.players[i].inv == InvulnerableTime)
            && (forall i :: 0 <= i < |a.players| && a.players[i].inv <= 0.0 && !Touches(a.players[i], a.obstacles)
                            && TargetedBy(a.players[i], a.missiles) ==>
                  r.players[i].lives == a.players[i].lives - 1 && r.players[i].inv == InvulnerableTime)
            && (forall i :: 0 <= i < |a.players| && !Touches(a.players[i], a.obstacles) && !TargetedBy(a.players[i], a.missiles) ==>
                  r.players[i] == a.players[i].(item := r.players[i].item))
            && (forall i :: 0 <= i < |a.players| ==>
                  r.players[i].x == CollideAll(a.players[i], a.obstacles).x && r.players[i].y == CollideAll(a.players[i], a.obstacles).y)
  {
    var (ps1, items1) := PickupPhase(a.players, a.items);
    var ps2 := ObstaclePhase(ps1, a.obstacles);
    var shot := MissilePhase(a.missiles, a.obstacles, ps2);
    HandleCollisionsHits(a, ps1, ps2, shot.players);
  }

  /**
   The hit rules of a whole pass: obstacle contact hurts a vulnerable player
   first; a missile hurts one that touched no obstacle; a player touched by
   neither keeps everything but the item.
   */
  lemma {:induction false} HandleCollisionsHits(a: Arena, ps1: seq<Player>, ps2: seq<Player>, ps3: seq<Player>)
    requires |ps1| == |ps2| == |ps3| == |a.players|
    requires forall i :: 0 <= i < |a.players| ==> Granted(a.players[i], a.items, ps1[i])
    requires forall i :: 0 <= i < |a.players| ==> ps2[i] == CollideAll(ps1[i], a.obstacles)
    requires forall i :: 0 <= i < |a.players| ==>
      AtMostOneHit(ps2[i], ps3[i]) && ps3[i] == ps2[i].(lives := ps3[i].lives, inv := ps3[i].inv)
    requires forall i :: 0 <= i < |ps2| && ps2[i].inv <= 0.0 && TargetedBy(ps2[i], a.missiles) ==>
      ps3[i].lives == ps2[i].lives - 1 && ps3[i].inv == InvulnerableTime
    requires forall i :: 0 <= i < |ps2| && !TargetedBy(ps2[i], a.missiles) ==> ps3[i] == ps2[i]
    ensures forall i :: 0 <= i < |a.players| && a.players[i].inv <= 0.0 && Touches(a.players[i], a.obstacles) ==>
      ps3[i].lives == a.players[i].lives - 1 && ps3[i].inv == InvulnerableTime
    ensures forall i :: 0 <= i < |a.players| && a.players[i].inv <= 0.0 && !Touches(a.players[i], a.obstacles)
                        && TargetedBy(a.players[i], a.missiles) ==>
      ps3[i].lives == a.players[i].lives - 1 && ps3[i].inv == InvulnerableTime
    ensures forall i :: 0 <= i < |a.players| && !Touches(a.players[i], a.obstacles) && !TargetedBy(a.players[i], a.missiles) ==>
      ps3[i] == a.players[i].(item := ps3[i].item)
    ensures forall i :: 0 <= i < |a.players| ==> AtMostOneHit(a.players[i], ps3[i])
    ensures forall i :: 0 <= i < |a.players| ==> ps3[i].id == a.players[i].id
    ensures forall i :: 0 <= i < |a.players| ==> Granted(a.players[i], a.items, a.players[i].(item := ps3[i].item))
    ensures forall i :: 0 <= i < |a.players| ==>
      ps3[i].x == CollideAll(a.players[i], a.obstacles).x && ps3[i].y == CollideAll(a.players[i], a.obstacles).y
  {
    HandleCollisionsSteps(a, ps1, ps2, ps3);
    forall i | 0 <= i < |a.players|
      ensures a.players[i].inv <= 0.0 && Touches(a.players[i], a.obstacles) ==>
        ps3[i].lives == a.players[i].lives - 1 && ps3[i].inv == InvulnerableTime
      ensures a.players[i].inv <= 0.0 && !Touches(a.players[i], a.obstacles) && TargetedBy(a.players[i], a.missiles) ==>
        ps3[i].lives == a.players[i].lives - 1 && ps3[i].inv == InvulnerableTime
      ensures !Touches(a.players[i], a.obstacles) && !TargetedBy(a.players[i], a.missiles) ==>
        ps3[i] == a.players[i].(item := ps3[i].item)
    {
      var p0, p1, p2 := a.players[i], ps1[i], ps2[i];
      assert p1 == p0.(item := p1.item);
      assert p1.Bounds() == p0.Bounds();
      assert Touches(p1, a.obstacles) == Touches(p0, a.obstacles);
      if p0.inv <= 0.0 {
        ContactHurtsVulnerable(p1, a.obstacles);
      }
      if !Touches(p0, a.obstacles) {
        if p0.inv > 0.0 {
          assert AtMostOneHit(p1, p2);
        }
        assert p2 == p1 by {
          if p0.inv <= 0.0 { } else {
            assert forall j :: 0 <= j < |a.obstacles| ==> !Overlap(p1.Bounds(), a.obstacles[j].Bounds());
          }
        }
        assert TargetedBy(p2, a.missiles) == TargetedBy(p0, a.missiles) by {
          assert forall k :: 0 <= k < |a.missiles| ==> Targets(a.missiles[k], p2) == Targets(a.missiles[k], p0);
        }
      }
    }
  }

  /**
   Missiles against obstacles over a whole pass: a missile that strikes a
   rock or a spike, or an obstacle no earlier missile covered, ends dead; an
   obstacle no missile covers is untouched, and a live one some missile
   covers loses hit points; a missile covering a player who touched no
   obstacle ends dead.
   */
  lemma HandleCollisionsShots(a: Arena)
    ensures var r := HandleCollisions(a);
            forall k, j :: 0 <= k < |a.missiles| && 0 <= j < |a.obstacles| && a.obstacles[j].kind != Wall
                           && Struck(a.missiles[k], a.obstacles[j])
                           ==> r.missiles[k].dead
    ensures var r := HandleCollisions(a);
            forall k, j :: 0 <= k < |a.missiles| && 0 <= j < |a.obstacles| && Struck(a.missiles[k], a.obstacles[j])
                           && !UnderFire(a.obstacles[j], a.missiles[..k])
                           ==> r.missiles[k].dead
    ensures var r := HandleCollisions(a);
            forall j :: 0 <= j < |a.obstacles| && !UnderFire(a.obstacles[j], a.missiles) ==> r.obstacles[j] == a.obstacles[j]
    ensures var r := HandleCollisions(a);
            forall j :: 0 <= j < |a.obstacles| && !a.obstacles[j].dead && UnderFire(a.obstacles[j], a.missiles) ==>
              r.obstacles[j].hp < a.obstacles[j].hp
    ensures var r := HandleCollisions(a);
            forall k, i :: 0 <= k < |a.missiles| && 0 <= i < |a.players| && Targets(a.missiles[k], a.players[i])
                           && !Touches(a.players[i], a.obstacles)
                           ==> r.missiles[k].dead
    ensures var r := HandleCollisions(a);
            forall k :: 0 <= k < |a.missiles| && HitsSomeone(a.missiles[k], r.players) ==> r.missiles[k].dead
    ensures var r := HandleCollisions(a);
            forall k :: 0 <= k < |a.missiles| && !HitsSomeone(a.missiles[k], r.players)
                        && !StrikesSomething(a.missiles[k], a.obstacles)
                        ==> r.missiles[k] == a.missiles[k]
  {
    var (ps1, items1) := PickupPhase(a.players, a.items);
    var ps2 := ObstaclePhase(ps1, a.obstacles);
    var shot := MissilePhase(a.missiles, a.obstacles, ps2);
    MissilesHitStandingPlayers(a, ps1, ps2, shot.missiles);
    SameTargets(ps2, shot.players);
  }

  /** Hits depend only on where the players stand and who they are, not on lives or invulnerability. */
  lemma {:induction false} SameTargets(ps: seq<Player>, qs: seq<Player>)
    requires |ps| == |qs|
    requires forall i :: 0 <= i < |ps| ==> qs[i] == ps[i].(lives := qs[i].lives, inv := qs[i].inv)
    ensures forall m :: HitsSomeone(m, ps) <==> HitsSomeone(m, qs)
  {
    forall m
      ensures HitsSomeone(m, ps) <==> HitsSomeone(m, qs)
    {
      assert forall i :: 0 <= i < |ps| ==> (Targets(m, ps[i]) <==> Targets(m, qs[i]));
    }
  }

  /** A missile covering a player who touched no obstacle still finds it where it stood, and dies. */
  lemma {:induction false} MissilesHitStandingPlayers(a: Arena, ps1: seq<Player>, ps2: seq<Player>, ms: seq<Missile>)
    requires |ps1| == |ps2| == |a.players| && |ms| == |a.missiles|
    requires forall i :: 0 <= i < |a.players| ==> Granted(a.players[i], a.items, ps1[i])
    requires forall i :: 0 <= i < |a.players| ==> ps2[i] == CollideAll(ps1[i], a.obstacles)
    requires forall k :: 0 <= k < |a.missiles| && HitsSomeone(a.missiles[k], ps2) ==> ms[k].dead
    ensures forall k, i :: 0 <= k < |a.missiles| && 0 <= i < |a.players| && Targets(a.missiles[k], a.players[i])
                           && !Touches(a.players[i], a.obstacles)
                           ==> ms[k].dead
  {
    forall k, i | 0 <= k < |a.missiles| && 0 <= i < |a.players| && Targets(a.missiles[k], a.players[i])
                  && !Touches(a.players[i], a.obstacles)
      ensures ms[k].dead
    {
      var p0, p1 := a.players[i], ps1[i];
      assert p1 == p0.(item := p1.item);
      assert p1.Bounds() == p0.Bounds();
      assert forall j :: 0 <= j < |a.obstacles| ==> !Overlap(p1.Bounds(), a.obstacles[j].Bounds());
      assert ps2[i] == p1;
      assert Targets(a.missiles[k], ps2[i]);
      assert HitsSomeone(a.missiles[k], ps2);
    }
  }

  lemma {:induction false} HandleCollisionsSteps(a: Arena, ps1: seq<Player>, ps2: seq<Player>, ps3: seq<Player>)
    requires |ps1| == |ps2| == |ps3| == |a.players|
    requires forall i :: 0 <= i < |a.players| ==> Granted(a.players[i], a.items, ps1[i])
    requires forall i :: 0 <= i < |a.players| ==> ps2[i] == CollideAll(ps1[i], a.obstacles)
    requires forall i :: 0 <= i < |a.players| ==>
      AtMostOneHit(ps2[i], ps3[i]) && ps3[i] == ps2[i].(lives := ps3[i].lives, inv := ps3[i].inv)
    ensures forall i :: 0 <= i < |a.players| ==> AtMostOneHit(a.players[i], ps3[i])
    ensures forall i :: 0 <= i < |a.players| ==> ps3[i].id == a.players[i].id
    ensures forall i :: 0 <= i < |a.players| ==> Granted(a.players[i], a.items, a.players[i].(item := ps3[i].item))
    ensures forall i :: 0 <= i < |a.players| ==>
      ps3[i].x == CollideAll(a.players[i], a.obstacles).x && ps3[i].y == CollideAll(a.players[i], a.obstacles).y
  {
    forall i | 0 <= i < |a.players|
      ensures AtMostOneHit(a.players[i], ps3[i])
      ensures ps3[i].id == a.players[i].id
      ensures Granted(a.players[i], a.items, a.players[i].(item := ps3[i].item))
      ensures ps3[i].x == CollideAll(a.players[i], a.obstacles).x && ps3[i].y == CollideAll(a.players[i], a.obstacles).y
    {
      var p0, p1, p2, p3 := a.players[i], ps1[i], ps2[i], ps3[i];
      assert p1 == p0.(item := p1.item);
      CollideAllIgnoresItem(p0, p1.item, a.obstacles);
      assert p1.lives == p0.lives && p1.inv == p0.inv;
      assert AtMostOneHit(p1, p2);
      assert p3.item == p2.item == p1.item;
      assert p0.(item := p3.item) == p1;
    }
  }

  /**
   Within one collision pass, an invulnerable player loses no lives, and a
   vulnerable one loses at most one, however many hits land.
   */
  lemma InvulnerabilityGatesDamage(a: Arena, i: int)
    requires 0 <= i < |a.players|
    ensures var r := HandleCollisions(a);
            && (a.players[i].inv > 0.0 ==> r.players[i].lives == a.players[i].lives)
            && a.players[i].lives - 1 <= r.players[i].lives <= a.players[i].lives
  {
  }
}

=== FILE: controller.dfy ===
/**
 The player step: key-driven acceleration, damping, forward drift, clamping
 to the playable rectangle, the two countdown timers, and item use.
 */
module Controller {
  import opened Numeric
  import opened Seqs
  import opened Entities

  /** Held-key state of one player's four direction keys, and the fire key's press edge. */
  datatype Keys = Keys(left: bool, right: bool, up: bool, down: bool, fire: bool)

  const Accel: real := 0.35
  const Damping: real := 0.9
  const FireCooldown: real := 300.0
  const MaxLives: int := 9

  /** The playable rectangle the player step clamps to. */
  const MinX: real := 40.0
  const MaxX: real := 760.0
  const MinY: real := 60.0
  const MaxY: real := 540.0

  /** One axis of input: the negative key wins when both are held. */
  function Axis(neg: bool, pos: bool): (a: real)
    ensures neg ==> a == -Accel
    ensures !neg && pos ==> a == Accel
    ensures !neg && !pos ==> a == 0.0
  {
    if neg then -Accel else if pos then Accel else 0.0
  }

  /** A timer counts down only while positive, and is not floored at zero. */
  function Countdown(t: real, dt: real): real {
    if t > 0.0 then t - dt else t
  }

  lemma CountdownSteps(t: real, dt: real)
    ensures t > 0.0 ==> Countdown(t, dt) == t - dt
    ensures t <= 0.0 ==> Countdown(t, dt) == t
    ensures dt >= 0.0 ==> Countdown(t, dt) <= t
  {
  }

  /** A timer one step from zero overshoots: 10 ms left and a 16 ms step leave -6. */
  lemma CountdownOvershoots()
    ensures Countdown(10.0, 16.0) == -6.0
  {
  }

  /** The forward drift of one step: the scroll speed times dt, scaled by 40 and then by 0.02. */
  function Drift(sp: real, dt: real): real {
    sp * dt * 40.0 * 0.02
  }

  /** Velocity on one axis after acceleration `a` and damping. */
  function Velocity(v: real, a: real, moveSpeed: real, dt: real): real {
    (v + a * moveSpeed * dt) * Damping
  }

  /** Where the motion step would put the player before clamping. */
  function Target(p: Player, k: Keys, dt: real, sp: real, moveSpeed: real): (real, real) {
    (p.x + Velocity(p.vx, Axis(k.left, k.right), moveSpeed, dt) * dt + Drift(sp, dt),
     p.y + Velocity(p.vy, Axis(k.up, k.down), moveSpeed, dt) * dt)
  }

  /**
   The motion half of tickPlayer: velocity gains acceleration, is damped by
   0.9, the position integrates it plus a small drift to the right, and is
   then clamped; the timers count down.
   */
  function MovePlayer(p: Player, k: Keys, dt: real, sp: real, moveSpeed: real): (r: Player)
    ensures MinX <= r.x <= MaxX && MinY <= r.y <= MaxY
    ensures p.fireCd > 0.0 ==> r.fireCd == p.fireCd - dt
    ensures p.fireCd <= 0.0 ==> r.fireCd == p.fireCd
    ensures p.inv > 0.0 ==> r.inv == p.inv - dt
    ensures p.inv <= 0.0 ==> r.inv == p.inv
    ensures !k.left && !k.right ==> r.vx == Damping * p.vx
    ensures !k.up && !k.down ==> r.vy == Damping * p.vy
    ensures k.left ==> r.vx == Damping * (p.vx - Accel * moveSpeed * dt)
    ensures !k.left && k.right ==> r.vx == Damping * (p.vx + Accel * moveSpeed * dt)
    ensures k.up ==> r.vy == Damping * (p.vy - Accel * moveSpeed * dt)
    ensures !k.up && k.down ==> r.vy == Damping * (p.vy + Accel * moveSpeed * dt)
    ensures var t := Target(p, k, dt, sp, moveSpeed);
            && (t.0 < MinX ==> r.x == MinX) && (t.0 > MaxX ==> r.x == MaxX)
            && (t.1 < MinY ==> r.y == MinY) && (t.1 > MaxY ==> r.y == MaxY)
    ensures r == p.(x := r.x, y := r.y, vx := r.vx, vy := r.vy, fireCd := r.fireCd, inv := r.inv)
  {
    var (x, y) := Target(p, k, dt, sp, moveSpeed);
    p.(x := Clamp(x, MinX, MaxX), y := Clamp(y, MinY, MaxY),
       vx := Velocity(p.vx, Axis(k.left, k.right), moveSpeed, dt),
       vy := Velocity(p.vy, Axis(k.up, k.down), moveSpeed, dt),
       fireCd := Countdown(p.fireCd, dt), inv := Countdown(p.inv, dt))
  }

  /**
   The clamp is the only correction: a step whose target lies inside the
   rectangle lands exactly there, with the damped velocity times dt plus the
   drift as its displacement.
   */
  lemma MoveInsideIsUnclamped(p: Player, k: Keys, dt: real, sp: real, moveSpeed: real)
    requires var t := Target(p, k, dt, sp, moveSpeed);
             MinX <= t.0 <= MaxX && MinY <= t.1 <= MaxY
    ensures var r := MovePlayer(p, k, dt, sp, moveSpeed);
            r.x == p.x + r.vx * dt + Drift(sp, dt) && r.y == p.y + r.vy * dt
  {
  }

  /** makeMissile: launched 20 units from the player's centre along its direction. */
  function MakeMissile(p: Player, dx: real, dy: real): (m: Missile)
    ensures m.owner == p.id && !m.dead
    ensures m.dx == dx && m.dy == dy && m.sp == 0.6 && m.radius == 6.0
    ensures m.x - p.x == 20.0 * dx && m.y - p.y == 20.0 * dy
  {
    Missile(p.id, p.x + dx * 20.0, p.y + dy * 20.0, dx, dy, 0.6, 6.0, false)
  }

  /** The shot directions of each reward, in the order they are fired. */
  function Shots(reward: Reward): seq<(real, real)> {
    match reward
    case Life => []
    case Front => [(1.0, 0.0)]
    case Back => [(-1.0, 0.0)]
    case Sides => [(1.0, 0.0), (-1.0, 0.0)]
  }

  /**
   useItem: a no-op without an item or while the fire cooldown runs;
   otherwise the item is spent. A life raises lives to at most 9; every
   other reward fires its missiles and starts the cooldown.
   */
  function UseItem(p: Player): (r: (Player, seq<Missile>))
    ensures p.item.None? || p.fireCd > 0.0 ==> r == (p, [])
    ensures p.item.Some? && p.fireCd <= 0.0 ==> r.0.item.None?
    ensures p.item == Some(Life) && p.fireCd <= 0.0 ==>
      && r.1 == [] && r.0 == p.(item := None, lives := r.0.lives)
      && (p.lives < MaxLives ==> r.0.lives == p.lives + 1)
      && (p.lives >= MaxLives ==> r.0.lives == MaxLives)
    ensures p.item.Some? && p.item != Some(Life) && p.fireCd <= 0.0 ==>
      r.0 == p.(item := None, fireCd := FireCooldown)
    ensures p.item == Some(Front) && p.fireCd <= 0.0 ==> |r.1| == 1 && r.1[0].dx == 1.0
    ensures p.item == Some(Back) && p.fireCd <= 0.0 ==> |r.1| == 1 && r.1[0].dx == -1.0
    ensures p.item == Some(Sides) && p.fireCd <= 0.0 ==> |r.1| == 2 && r.1[0].dx == 1.0 && r.1[1].dx == -1.0
    ensures forall i :: 0 <= i < |r.1| ==> r.1[i].owner == p.id && r.1[i].dy == 0.0 && !r.1[i].dead
    ensures forall i :: 0 <= i < |r.1| ==> r.1[i] == MakeMissile(p, r.1[i].dx, 0.0)
  {
    if p.item.None? || p.fireCd > 0.0 then (p, [])
    else if p.item.value == Life then
      (p.(lives := if p.lives + 1 <= MaxLives then p.lives + 1 else MaxLives, item := None), [])
    else
      var shots := Shots(p.item.value);
      var missiles := seq(|shots|, i requires 0 <= i < |shots| => MakeMissile(p, shots[i].0, shots[i].1));
      (p.(item := None, fireCd := FireCooldown), missiles)
  }

  /** An item is spent by its use: pressing fire again at once does nothing. */
  lemma UseItemTwiceIsNoop(p: Player)
    ensures var once := UseItem(p).0;
            UseItem(once) == (once, [])
  {
  }

  /** tickPlayer: move, count down, then use the item on a fire press. */
  function TickPlayer(p: Player, k: Keys, dt: real, sp: real, moveSpeed: real): (r: (Player, seq<Missile>))
    ensures MinX <= r.0.x <= MaxX && MinY <= r.0.y <= MaxY
    ensures r.0.id == p.id
    ensures !k.fire ==> r.1 == [] && r.0.item == p.item && r.0.lives == p.lives
    ensures r.0.item.Some? ==> r.0.item == p.item
    ensures p.item != Some(Life) ==> r.0.lives == p.lives
    ensures forall i :: 0 <= i < |r.1| ==> r.1[i].owner == p.id && !r.1[i].dead
    ensures k.fire && p.item.Some? && Countdown(p.fireCd, dt) <= 0.0 ==> r.0.item.None?
    ensures k.fire && p.item.Some? && p.item != Some(Life) && Countdown(p.fireCd, dt) <= 0.0 ==>
      |r.1| > 0 && r.0.fireCd == FireCooldown
    ensures Countdown(p.fireCd, dt) > 0.0 ==> r.1 == [] && r.0.item == p.item
    ensures var q := MovePlayer(p, k, dt, sp, moveSpeed);
            r.0 == q.(item := r.0.item, lives := r.0.lives, fireCd := r.0.fireCd)
    ensures r.0.fireCd ==
      if k.fire && p.item.Some? && p.item != Some(Life) && Countdown(p.fireCd, dt) <= 0.0 then FireCooldown
      else Countdown(p.fireCd, dt)
    ensures k.fire && p.item == Some(Life) && Countdown(p.fireCd, dt) <= 0.0 ==>
      r.0.lives == if p.lives < MaxLives then p.lives + 1 else MaxLives
    ensures var q := MovePlayer(p, k, dt, sp, moveSpeed);
            forall i :: 0 <= i < |r.1| ==> r.1[i] == MakeMissile(q, r.1[i].dx, 0.0)
    ensures k.fire && p.item.Some? && Countdown(p.fireCd, dt) <= 0.0 ==>
      r.1 == UseItem(MovePlayer(p, k, dt, sp, moveSpeed)).1
    ensures !k.fire || p.item.None? || Countdown(p.fireCd, dt) > 0.0 ==>
      r.0.lives == p.lives && r.0.item == p.item && r.1 == []
  {
    var moved := MovePlayer(p, k, dt, sp, moveSpeed);
    if k.fire then UseItem(moved) else (moved, [])
  }

  /** The missile was fired by one of the players `ps`. */
  predicate OwnedBy(m: Missile, ps: seq<Player>) {
    exists i :: 0 <= i < |ps| && m.owner == ps[i].id
  }

  /** Player 1 reads the first key set and every other player the second. */
  function KeysFor(p: Player, k1: Keys, k2: Keys): Keys {
    if p.id == 1 then k1 else k2
  }

  /** The shots each player fires this tick, player by player. */
  function Fired(ps: seq<Player>, k1: Keys, k2: Keys, dt: real, sp: real, moveSpeed: real): (r: seq<seq<Missile>>)
    ensures |r| == |ps|
    ensures forall i :: 0 <= i < |ps| ==> r[i] == TickPlayer(ps[i], KeysFor(ps[i], k1, k2), dt, sp, moveSpeed).1
    decreases |ps|
  {
    if |ps| == 0 then []
    else [TickPlayer(ps[0], KeysFor(ps[0], k1, k2), dt, sp, moveSpeed).1] + Fired(ps[1..], k1, k2, dt, sp, moveSpeed)
  }

  /**
   The players step in order; player 1 reads `k1` and player 2 reads `k2`,
   and each one's new missiles are appended to the missile list.
   */
  function TickPlayers(ps: seq<Player>, k1: Keys, k2: Keys, dt: real, sp: real, moveSpeed: real,
                       missiles: seq<Missile>): (r: (seq<Player>, seq<Missile>))
    ensures |r.0| == |ps|
    ensures |r.1| >= |missiles| && r.1[..|missiles|] == missiles
    ensures forall i :: 0 <= i < |ps| ==> r.0[i].id == ps[i].id
    ensures forall i :: 0 <= i < |ps| ==> MinX <= r.0[i].x <= MaxX && MinY <= r.0[i].y <= MaxY
    ensures forall i :: 0 <= i < |ps| && r.0[i].item.Some? ==> r.0[i].item == ps[i].item
    ensures forall j :: |missiles| <= j < |r.1| ==> !r.1[j].dead
    ensures forall i :: 0 <= i < |ps| ==> r.0[i] == TickPlayer(ps[i], KeysFor(ps[i], k1, k2), dt, sp, moveSpeed).0
    ensures forall j :: |missiles| <= j < |r.1| ==> OwnedBy(r.1[j], ps)
    ensures r.1 == missiles + Flatten(Fired(ps, k1, k2, dt, sp, moveSpeed))
    ensures |ps| == 2 ==>
      r.1 == missiles + TickPlayer(ps[0], KeysFor(ps[0], k1, k2), dt, sp, moveSpeed).1
                      + TickPlayer(ps[1], KeysFor(ps[1], k1, k2), dt, sp, moveSpeed).1
    decreases |ps|
  {
    if |ps| == 0 then
      FiredFacts(ps, k1, k2, dt, sp, moveSpeed, missiles, missiles);
      ([], missiles)
    else
      var first := TickPlayer(ps[0], KeysFor(ps[0], k1, k2), dt, sp, moveSpeed);
      var after := TickPlayers(ps[1..], k1, k2, dt, sp, moveSpeed, missiles + first.1);
      FiredSteps(ps, k1, k2, dt, sp, moveSpeed, missiles, first.1, after.1);
      SteppedPlayers(ps, k1, k2, dt, sp, moveSpeed, first.0, after.0);
      FiredFacts(ps, k1, k2, dt, sp, moveSpeed, missiles, after.1);
      ([first.0] + after.0, after.1)
  }

  /**
   The step case of TickPlayers' missile list: the first player's shots
   follow the old missiles, and the rest's follow those.
   */
  lemma {:induction false} FiredSteps(ps: seq<Player>, k1: Keys, k2: Keys, dt: real, sp: real, moveSpeed: real,
                                      missiles: seq<Missile>, shots: seq<Missile>, all: seq<Missile>)
    requires |ps| > 0
    requires shots == TickPlayer(ps[0], KeysFor(ps[0], k1, k2), dt, sp, moveSpeed).1
    requires all == missiles + shots + Flatten(Fired(ps[1..], k1, k2, dt, sp, moveSpeed))
    ensures all == missiles + Flatten(Fired(ps, k1, k2, dt, sp, moveSpeed))
    ensures |ps| == 2 ==>
      all == missiles + shots + TickPlayer(ps[1], KeysFor(ps[1], k1, k2), dt, sp, moveSpeed).1
  {
    var g := Fired(ps[1..], k1, k2, dt, sp, moveSpeed);
    assert Fired(ps, k1, k2, dt, sp, moveSpeed) == [shots] + g;
    FlattenAfter(missiles, shots, g, all);
  }

  /** The step case of TickPlayers' players: the first player's step, then the rest's. */
  lemma {:induction false} SteppedPlayers(ps: seq<Player>, k1: Keys, k2: Keys, dt: real, sp: real, moveSpeed: real,
                                          first: Player, rest: seq<Player>)
    requires |ps| > 0 && |rest| == |ps| - 1
    requires first == TickPlayer(ps[0], KeysFor(ps[0], k1, k2), dt, sp, moveSpeed).0
    requires forall i :: 0 <= i < |ps| - 1 ==> rest[i] == TickPlayer(ps[1..][i], KeysFor(ps[1..][i], k1, k2), dt, sp, moveSpeed).0
    ensures forall i :: 0 <= i < |ps| ==> ([first] + rest)[i] == TickPlayer(ps[i], KeysFor(ps[i], k1, k2), dt, sp, moveSpeed).0
    ensures forall i :: 0 <= i < |ps| ==> ([first] + rest)[i].id == ps[i].id
    ensures forall i :: 0 <= i < |ps| ==> MinX <= ([first] + rest)[i].x <= MaxX && MinY <= ([first] + rest)[i].y <= MaxY
    ensures forall i :: 0 <= i < |ps| && ([first] + rest)[i].item.Some? ==> ([first] + rest)[i].item == ps[i].item
  {
    forall i | 0 <= i < |ps|
      ensures ([first] + rest)[i] == TickPlayer(ps[i], KeysFor(ps[i], k1, k2), dt, sp, moveSpeed).0
    {
      if i > 0 {
        assert ps[1..][i - 1] == ps[i];
      }
    }
  }

  /** Every missile after the old ones is a live shot of one of the players. */
  lemma {:induction false} FiredFacts(ps: seq<Player>, k1: Keys, k2: Keys, dt: real, sp: real, moveSpeed: real,
                                      missiles: seq<Missile>, all: seq<Missile>)
    requires all == missiles + Flatten(Fired(ps, k1, k2, dt, sp, moveSpeed))
    ensures |all| >= |missiles| && all[..|missiles|] == missiles
    ensures forall j :: |missiles| <= j < |all| ==> !all[j].dead
    ensures forall j :: |missiles| <= j < |all| ==> OwnedBy(all[j], ps)
  {
    var f := Fired(ps, k1, k2, dt, sp, moveSpeed);
    FlattenMembers(f);
    assert all[..|missiles|] == missiles;
    forall j | |missiles| <= j < |all|
      ensures !all[j].dead && OwnedBy(all[j], ps)
    {
      assert all[j] in Flatten(f);
      var i :| 0 <= i < |f| && all[j] in f[i];
      var n :| 0 <= n < |f[i]| && f[i][n] == all[j];
      assert f[i] == TickPlayer(ps[i], KeysFor(ps[i], k1, k2), dt, sp, moveSpeed).1;
    }
  }
}

=== FILE: entities.dfy ===
/**
 The records the match simulation works on: the two players, the item boxes,
 the missiles and the obstacles, gathered in an arena. Colours and other
 drawing-only fields are not part of the model.
 */
module Entities {
  import opened Geometry

  datatype Option<T> = None | Some(value: T)

  /** What an item box holds. `Life` is handled by useItem but never spawned. */
  datatype Reward = Life | Front | Back | Sides

  datatype Player = Player(
    id: int,
    x: real, y: real, w: real, h: real,
    vx: real, vy: real,
    lives: int,
    item: Option<Reward>,
    fireCd: real,
    inv: real)
  {
    function Bounds(): Box { Box(x, y, w, h) }
  }

  datatype Item = Item(x: real, y: real, w: real, h: real, reward: Reward, dead: bool)
  {
    function Bounds(): Box { Box(x, y, w, h) }
  }

  /** A missile moves along (dx, dy) at `sp` units per millisecond. */
  datatype Missile = Missile(
    owner: int,
    x: real, y: real,
    dx: real, dy: real,
    sp: real,
    radius: real,
    dead: bool)
  {
    /**
     The box the collision code builds for a missile: it hands
     (x - radius, y - radius) to the centre-based overlap test, so the box is
     centred up and to the left of the missile itself.
     */
    function HitBox(): Box { Box(x - radius, y - radius, radius * 2.0, radius * 2.0) }
  }

  datatype ObstacleKind = Wall | Rock | Spike

  datatype Obstacle = Obstacle(kind: ObstacleKind, x: real, y: real, w: real, h: real, hp: int, dead: bool)
  {
    function Bounds(): Box { Box(x, y, w, h) }
  }

  /**
   The hit-point discipline every obstacle keeps: a wall never has negative
   hit points and is dead exactly when they reach zero; rocks and spikes are
   never dead.
   */
  predicate ObstacleOk(o: Obstacle) {
    && (o.kind == Wall ==> 0 <= o.hp && (o.dead <==> o.hp == 0))
    && (o.kind != Wall ==> !o.dead)
  }

  datatype Arena = Arena(players: seq<Player>, items: seq<Item>, missiles: seq<Missile>, obstacles: seq<Obstacle>)

  const PlayerWidth: real := 26.0
  const PlayerHeight: real := 16.0

  /** makePlayer: at rest, empty-handed, with no cooldown or invulnerability. */
  function MakePlayer(id: int, x: real, y: real, lives: int): (p: Player)
    ensures p.Bounds() == Box(x, y, PlayerWidth, PlayerHeight)
    ensures p.id == id && p.lives == lives && p.item == None
    ensures p.vx == 0.0 && p.vy == 0.0 && p.fireCd == 0.0 && p.inv == 0.0
  {
    Player(id, x, y, PlayerWidth, PlayerHeight, 0.0, 0.0, lives, None, 0.0, 0.0)
  }
}

=== FILE: geometry.dfy ===
/**
 Axis-aligned boxes as the game stores them: a centre (x, y) and a full
 width and height, so each box reaches w/2 to either side of its centre.
 */
module Geometry {

  datatype Box = Box(x: real, y: real, w: real, h: real)

  /** rectsOverlap: the open extents intersect on both axes. */
  predicate Overlap(a: Box, b: Box) {
    && a.x - a.w / 2.0 < b.x + b.w / 2.0
    && a.x + a.w / 2.0 > b.x - b.w / 2.0
    && a.y - a.h / 2.0 < b.y + b.h / 2.0
    && a.y + a.h / 2.0 > b.y - b.h / 2.0
  }

  /** The point (px, py) lies strictly inside the box. */
  predicate Inside(b: Box, px: real, py: real) {
    && b.x - b.w / 2.0 < px < b.x + b.w / 2.0
    && b.y - b.h / 2.0 < py < b.y + b.h / 2.0
  }

  lemma OverlapSymmetric(a: Box, b: Box)
    ensures Overlap(a, b) <==> Overlap(b, a)
  {
  }

  /** Boxes that only share an edge do not overlap. */
  lemma EdgeContactIsNotOverlap(a: Box, b: Box)
    requires a.x + a.w / 2.0 == b.x - b.w / 2.0 || a.y + a.h / 2.0 == b.y - b.h / 2.0
    ensures !Overlap(a, b) && !Overlap(b, a)
  {
  }

  /**
   For boxes of positive size, the overlap test holds exactly when some point
   lies strictly inside both boxes.
   */
  lemma OverlapIffSharedInterior(a: Box, b: Box)
    requires a.w > 0.0 && a.h > 0.0 && b.w > 0.0 && b.h > 0.0
    ensures Overlap(a, b) <==> exists px, py :: Inside(a, px, py) && Inside(b, px, py)
  {
    if Overlap(a, b) {
      var left := if a.x - a.w / 2.0 < b.x - b.w / 2.0 then b.x - b.w / 2.0 else a.x - a.w / 2.0;
      var right := if a.x + a.w / 2.0 < b.x + b.w / 2.0 then a.x + a.w / 2.0 else b.x + b.w / 2.0;
      var bottom := if a.y - a.h / 2.0 < b.y - b.h / 2.0 then b.y - b.h / 2.0 else a.y - a.h / 2.0;
      var top := if a.y + a.h / 2.0 < b.y + b.h / 2.0 then a.y + a.h / 2.0 else b.y + b.h / 2.0;
      var px, py := (left + right) / 2.0, (bottom + top) / 2.0;
      assert Inside(a, px, py) && Inside(b, px, py);
    }
  }
}

=== FILE: match_rules.dfy ===
/**
 The match clock: the scroll-speed tier as a function of elapsed time and
 the terminal-outcome rule.
 */
module MatchRules {
  import opened Entities
  import opened Tunables

  datatype Outcome = P1Wins | P2Wins | Draw

  /** scrollSpeed: slow before 20 s, medium before 40 s, fast afterwards. */
  function ScrollSpeed(c: Config, t: real): (sp: real)
    ensures sp == c.spdSlow || sp == c.spdMed || sp == c.spdFast
    ensures t < 20.0 ==> sp == c.spdSlow
    ensures 20.0 <= t < 40.0 ==> sp == c.spdMed
    ensures 40.0 <= t ==> sp == c.spdFast
  {
    if t < 20.0 then c.spdSlow else if t < 40.0 then c.spdMed else c.spdFast
  }

  /** With tiers ordered slow <= medium <= fast, the scroll never slows down as time passes. */
  lemma ScrollSpeedMonotone(c: Config, t: real, t': real)
    requires c.spdSlow <= c.spdMed <= c.spdFast
    requires t <= t'
    ensures ScrollSpeed(c, t) <= ScrollSpeed(c, t')
  {
  }

  /** The tier changes on the first tick at or past 20 s. */
  lemma ScrollTierAtTwentySeconds(c: Config)
    ensures ScrollSpeed(c, 19.9) == c.spdSlow
    ensures ScrollSpeed(c, 20.0) == c.spdMed && ScrollSpeed(c, 20.1) == c.spdMed
    ensures ScrollSpeed(c, 40.0) == c.spdFast
  {
  }

  /**
   checkWinCondition. A player is alive while its lives are positive. If
   exactly one player is dead the other wins; if both are, it is a draw; if
   both are alive and time is up, the player further right wins and equal x
   is a draw; otherwise the match goes on.
   */
  function CheckWin(p1: Player, p2: Player, elapsed: real, matchTime: int): (r: Option<Outcome>)
    ensures r.Some? <==> p1.lives <= 0 || p2.lives <= 0 || elapsed >= matchTime as real
    ensures p1.lives <= 0 && p2.lives > 0 ==> r == Some(P2Wins)
    ensures p2.lives <= 0 && p1.lives > 0 ==> r == Some(P1Wins)
    ensures p1.lives <= 0 && p2.lives <= 0 ==> r == Some(Draw)
    ensures p1.lives > 0 && p2.lives > 0 && elapsed >= matchTime as real ==>
      && (r == Some(P1Wins) <==> p1.x > p2.x)
      && (r == Some(P2Wins) <==> p1.x < p2.x)
      && (r == Some(Draw) <==> p1.x == p2.x)
  {
    var alive1 := p1.lives > 0;
    var alive2 := p2.lives > 0;
    var timeUp := elapsed >= matchTime as real;
    if !alive1 && alive2 then Some(P2Wins)
    else if !alive2 && alive1 then Some(P1Wins)
    else if !alive1 && !alive2 then Some(Draw)
    else if timeUp then Some(if p1.x > p2.x then P1Wins else if p1.x < p2.x then P2Wins else Draw)
    else None
  }

  function Mirror(o: Outcome): Outcome {
    match o
    case P1Wins => P2Wins
    case P2Wins => P1Wins
    case Draw => Draw
  }

  /** The rule favours neither seat: swapping the players mirrors the outcome. */
  lemma CheckWinIsFair(p1: Player, p2: Player, elapsed: real, matchTime: int)
    ensures var r := CheckWin(p1, p2, elapsed, matchTime);
            var s := CheckWin(p2, p1, elapsed, matchTime);
            s == if r.Some? then Some(Mirror(r.value)) else None
  {
  }

  /**
   At time-up the tie-break is position, not lives: a player with more lives
   but further left loses.
   */
  lemma TimeUpTieBreakIgnoresLives()
    ensures var p1 := MakePlayer(1, 100.0, 300.0, 5);
            var p2 := MakePlayer(2, 200.0, 300.0, 3);
            CheckWin(p1, p2, 60.0, 60) == Some(P2Wins)
  {
  }
}

=== FILE: numeric.dfy ===
/**
 Numeric helpers shared by the simulation: JavaScript's Math.min, Math.max and
 Math.round over exact reals, and the clamp used by both the tunable setters
 and the player's playable rectangle.
 */
module Numeric {

  function Min(a: real, b: real): (r: real)
    ensures r <= a && r <= b
    ensures r == a || r == b
  {
    if a <= b then a else b
  }

  function Max(a: real, b: real): (r: real)
    ensures r >= a && r >= b
    ensures r == a || r == b
  {
    if a >= b then a else b
  }

  function Abs(a: real): real {
    if a < 0.0 then -a else a
  }

  /** Math.round: the nearest integer, with halves rounded towards +infinity. */
  function Round(v: real): (r: int)
    ensures v - 0.5 < r as real <= v + 0.5
  {
    (v + 0.5).Floor
  }

  /** Exactly one integer lies in the half-open window Round picks from. */
  lemma RoundIsUnique(v: real, k: int)
    requires v - 0.5 < k as real <= v + 0.5
    ensures Round(v) == k
  {
  }

  /** Whole numbers are left alone by rounding. */
  lemma RoundOfInteger(k: int)
    ensures Round(k as real) == k
  {
    RoundIsUnique(k as real, k);
  }

  /** clamp: `v` limited to [lo, hi]; when lo > hi the lower bound wins. */
  function Clamp(v: real, lo: real, hi: real): (r: real)
    ensures lo <= hi ==> lo <= r <= hi
    ensures lo <= v <= hi ==> r == v
    ensures v < lo ==> r == lo
    ensures lo <= hi < v ==> r == hi
    ensures r == v || r == lo || r == hi
  {
    Max(lo, Min(hi, v))
  }

  lemma ClampIdempotent(v: real, lo: real, hi: real)
    requires lo <= hi
    ensures Clamp(Clamp(v, lo, hi), lo, hi) == Clamp(v, lo, hi)
  {
  }

  lemma ClampMonotone(u: real, v: real, lo: real, hi: real)
    requires u <= v
    ensures Clamp(u, lo, hi) <= Clamp(v, lo, hi)
  {
  }

  /** clampInt: `v` rounded to the nearest integer, then limited to [lo, hi]. */
  function ClampInt(v: real, lo: int, hi: int): (r: int)
    ensures lo <= hi ==> lo <= r <= hi
    ensures lo <= Round(v) <= hi ==> r == Round(v)
    ensures Round(v) < lo ==> r == lo
    ensures lo <= hi < Round(v) ==> r == hi
  {
    var n := Round(v);
    var m := if hi <= n then hi else n;
    if lo >= m then lo else m
  }
}

=== FILE: seqs.dfy ===
/**
 Order-preserving filtering of sequences, the shape of JavaScript's
 Array.prototype.filter used by the off-screen culling.
 */
module Seqs {

  /** `r` can be obtained from `s` by deleting elements, keeping the order. */
  ghost predicate IsSubsequence<T>(r: seq<T>, s: seq<T>)
    decreases |s|
  {
    if |r| == 0 then true
    else if |s| == 0 then false
    else (r[0] == s[0] && IsSubsequence(r[1..], s[1..])) || IsSubsequence(r, s[1..])
  }

  function Filter<T(!new)>(s: seq<T>, keep: T -> bool): (r: seq<T>)
    ensures |r| <= |s|
    ensures IsSubsequence(r, s)
    ensures forall i :: 0 <= i < |r| ==> keep(r[i])
    ensures forall x :: x in s && keep(x) ==> x in r
    ensures (forall i :: 0 <= i < |s| ==> keep(s[i])) ==> r == s
    ensures forall x :: multiset(r)[x] == if keep(x) then multiset(s)[x] else 0
    decreases |s|
  {
    if |s| == 0 then []
    else
      var rest := Filter(s[1..], keep);
      assert s == [s[0]] + s[1..];
      assert multiset(s) == multiset{s[0]} + multiset(s[1..]);
      if keep(s[0]) then
        assert multiset([s[0]] + rest) == multiset{s[0]} + multiset(rest);
        [s[0]] + rest
      else rest
  }

  /** Filtering with the same predicate a second time changes nothing. */
  lemma FilterIdempotent<T(!new)>(s: seq<T>, keep: T -> bool)
    ensures Filter(Filter(s, keep), keep) == Filter(s, keep)
  {
  }

  /** The sequences of `ss` joined end to end, in order. */
  function Flatten<T>(ss: seq<seq<T>>): seq<T>
    decreases |ss|
  {
    if |ss| == 0 then [] else ss[0] + Flatten(ss[1..])
  }

  /** The joined sequence holds every element of every part, and nothing else. */
  lemma {:induction false} FlattenMembers<T>(ss: seq<seq<T>>)
    ensures forall i, n :: 0 <= i < |ss| && 0 <= n < |ss[i]| ==> ss[i][n] in Flatten(ss)
    ensures forall x :: x in Flatten(ss) ==> exists i :: 0 <= i < |ss| && x in ss[i]
    decreases |ss|
  {
    if |ss| > 0 {
      FlattenMembers(ss[1..]);
      assert forall i :: 0 < i < |ss| ==> ss[i] == ss[1..][i - 1];
    }
  }

  /** Joining two sequences is concatenation. */
  lemma FlattenTwo<T>(a: seq<T>, b: seq<T>)
    ensures Flatten([a, b]) == a + b
  {
    assert [a, b][1..] == [b];
    assert [b][1..] == [];
    assert Flatten([b]) == b + Flatten([b][1..]);
    assert Flatten([b]) == b;
  }

  /** Joining `head` in front of `tail` and appending the result to `before`. */
  lemma FlattenAfter<T>(before: seq<T>, head: seq<T>, tail: seq<seq<T>>, all: seq<T>)
    requires all == before + head + Flatten(tail)
    ensures all == before + Flatten([head] + tail)
    ensures |tail| == 1 ==> all == before + head + tail[0]
  {
    var ss := [head] + tail;
    assert ss[0] == head && ss[1..] == tail;
    assert Flatten(ss) == head + Flatten(tail);
    assert before + head + Flatten(tail) == before + (head + Flatten(tail));
    if |tail| == 1 {
      assert tail[1..] == [];
      assert Flatten(tail) == tail[0] + Flatten(tail[1..]);
      assert Flatten(tail[1..]) == [];
    }
  }

  /** Two equally long sequences that hold `x` at the same positions hold it equally often. */
  lemma {:induction false} CountsAgree<T>(a: seq<T>, b: seq<T>, x: T)
    requires |a| == |b|
    requires forall j :: 0 <= j < |a| ==> (a[j] == x <==> b[j] == x)
    ensures multiset(a)[x] == multiset(b)[x]
    decreases |a|
  {
    if |a| > 0 {
      var a', b' := a[1..], b[1..];
      forall j | 0 <= j < |a'|
        ensures a'[j] == x <==> b'[j] == x
      {
        assert a'[j] == a[j + 1] && b'[j] == b[j + 1];
      }
      CountsAgree(a', b', x);
      assert a == [a[0]] + a';
      assert b == [b[0]] + b';
      assert multiset(a) == multiset([a[0]]) + multiset(a');
      assert multiset(b) == multiset([b[0]]) + multiset(b');
    }
  }
}

=== FILE: simulation.dfy ===
/**
 The per-frame update: the pause-menu toggle and gating, then one tick of
 the match in the game's order (clock, spawning, players, motion,
 collisions, culling, outcome).
 */
module Simulation {
  import opened Numeric
  import opened Seqs
  import opened Entities
  import opened Tunables
  import opened Spawner
  import opened Controller
  import opened Collisions
  import opened Cleanup
  import opened MatchRules
  import opened Geometry

  /**
   Everything the update reads and writes. `menu` is the cursor of the open
   pause menu; `outcome` is set once the match has ended.
   */
  datatype State = State(
    cfg: Config,
    arena: Arena,
    elapsed: real,
    running: bool,
    menu: Option<int>,
    outcome: Option<Outcome>)

  /**
   One frame's input: the frame time in milliseconds, both players' keys, the
   menu toggle press, the menu's key presses and the random samples.
   */
  datatype Input = Input(
    dt: real,
    keys1: Keys,
    keys2: Keys,
    toggle: bool,
    menuKeys: MenuKeys,
    samples: seq<Sample>)

  /** The longest step one frame may take, in milliseconds. */
  const MaxStep: real := 50.0

  /** What the update relies on: two players and a menu cursor on a row. */
  predicate WellFormed(s: State) {
    && |s.arena.players| == 2
    && (s.menu.Some? ==> IsRow(s.menu.value))
  }

  /**
   Every obstacle keeps its hit-point discipline, and no item box or player
   holds a life.
   */
  ghost predicate ArenaOk(a: Arena) {
    && (forall j :: 0 <= j < |a.obstacles| ==> ObstacleOk(a.obstacles[j]))
    && (forall j :: 0 <= j < |a.items| ==> a.items[j].reward != Life)
    && (forall i :: 0 <= i < |a.players| ==> a.players[i].item != Some(Life))
  }

  /**
   The invariant of reachable states: players 1 and 2 in that order; a
   running match has no menu open and no outcome; and the field is ArenaOk.
   */
  ghost predicate Inv(s: State) {
    && WellFormed(s)
    && s.arena.players[0].id == 1 && s.arena.players[1].id == 2
    && (s.running ==> s.menu.None? && s.outcome.None?)
    && ArenaOk(s.arena)
  }

  /** initMatch: both players at their starting spots with the configured lives, nothing else on the field. */
  function InitMatch(c: Config): (s: State)
    ensures Inv(s) && s.running && s.elapsed == 0.0 && s.cfg == c
    ensures s.arena.players[0].lives == c.lifeStart && s.arena.players[1].lives == c.lifeStart
    ensures s.arena.items == [] && s.arena.missiles == [] && s.arena.obstacles == []
    ensures s.arena.players == [MakePlayer(1, 240.0, 300.0, c.lifeStart), MakePlayer(2, 200.0, 340.0, c.lifeStart)]
    ensures s.menu.None? && s.outcome.None?
  {
    var players := [MakePlayer(1, 240.0, 300.0, c.lifeStart), MakePlayer(2, 200.0, 340.0, c.lifeStart)];
    State(c, Arena(players, [], [], []), 0.0, true, None, None)
  }

  /** Missiles move along their direction at their own speed. */
  function Fly(m: Missile, dt: real): Missile {
    m.(x := m.x + m.dx * m.sp * dt, y := m.y + m.dy * m.sp * dt)
  }

  /** Obstacles and item boxes scroll left at the scroll speed. */
  function ScrollObstacle(o: Obstacle, sp: real, dt: real): Obstacle {
    o.(x := o.x - sp * dt)
  }

  function ScrollItem(it: Item, sp: real, dt: real): Item {
    it.(x := it.x - sp * dt)
  }

  /**
   The motion step of a tick. Only positions change; the hit-point
   discipline and the rewards are kept.
   */
  function MoveAll(a: Arena, sp: real, dt: real): (r: Arena)
    ensures r.players == a.players
    ensures |r.items| == |a.items| && |r.missiles| == |a.missiles| && |r.obstacles| == |a.obstacles|
    ensures forall j :: 0 <= j < |a.items| ==> r.items[j] == a.items[j].(x := r.items[j].x)
    ensures forall k :: 0 <= k < |a.missiles| ==> r.missiles[k] == a.missiles[k].(x := r.missiles[k].x, y := r.missiles[k].y)
    ensures forall j :: 0 <= j < |a.obstacles| ==> r.obstacles[j] == a.obstacles[j].(x := r.obstacles[j].x)
    ensures forall j :: 0 <= j < |a.obstacles| ==> r.obstacles[j].x == a.obstacles[j].x - sp * dt
    ensures forall j :: 0 <= j < |a.items| ==> r.items[j].x == a.items[j].x - sp * dt
    ensures forall k :: 0 <= k < |a.missiles| ==>
      && r.missiles[k].x == a.missiles[k].x + a.missiles[k].dx * a.missiles[k].sp * dt
      && r.missiles[k].y == a.missiles[k].y + a.missiles[k].dy * a.missiles[k].sp * dt
  {
    Arena(a.players,
          seq(|a.items|, j requires 0 <= j < |a.items| => ScrollItem(a.items[j], sp, dt)),
          seq(|a.missiles|, k requires 0 <= k < |a.missiles| => Fly(a.missiles[k], dt)),
          seq(|a.obstacles|, j requires 0 <= j < |a.obstacles| => ScrollObstacle(a.obstacles[j], sp, dt)))
  }

  /**
   The field a tick hands to the collision pass: the clock advanced, the
   spawners run, the players stepped, and everything moved.
   */
  function Staged(s: State, inp: Input): Arena
    requires WellFormed(s)
    requires |inp.samples| >= SamplesPerTick
  {
    var dts := Min(MaxStep, inp.dt);
    var sp := ScrollSpeed(s.cfg, s.elapsed + dts / 1000.0);
    var spawned := SpawnLogic(s.cfg, s.arena.obstacles, s.arena.items, inp.samples);
    var (players, missiles) := TickPlayers(s.arena.players, inp.keys1, inp.keys2, dts, sp, s.cfg.moveSpeed, s.arena.missiles);
    MoveAll(Arena(players, spawned.items, missiles, spawned.obstacles), sp, dts)
  }

  /** Some player's box overlaps the item box. */
  predicate Reached(it: Item, ps: seq<Player>) {
    exists i :: 0 <= i < |ps| && Overlap(ps[i].Bounds(), it.Bounds())
  }

  /**
   What one collision pass followed by culling leaves of the field `m`. An
   item box survives, as often as it occurred, exactly when it is inside the
   margins and no player reached it. An obstacle no missile covered survives
   if inside the margins, and every survivor is a worn obstacle of the field.
   A missile that struck nothing and covers no player survives if inside the
   margins, and every surviving missile is one of the field's, untouched and
   covering no player. Players end where the obstacle bounces put them.
   */
  ghost predicate Survivors(m: Arena, r: Arena) {
    && (forall it :: multiset(r.items)[it] == if ItemKept(it) && !Reached(it, m.players) then multiset(m.items)[it] else 0)
    && (forall o :: o in m.obstacles && ObstacleKept(o) && !UnderFire(o, m.missiles) ==> o in r.obstacles)
    && (forall q :: q in r.obstacles ==> exists o :: o in m.obstacles && Wears(o, q))
    && (forall x :: x in m.missiles && MissileKept(x) && !StrikesSomething(x, m.obstacles) && !HitsSomeone(x, r.players) ==>
          x in r.missiles)
    && (forall x :: x in r.missiles ==> x in m.missiles && !HitsSomeone(x, r.players))
    && |r.players| == |m.players|
    && (forall i :: 0 <= i < |m.players| ==>
          r.players[i].x == CollideAll(m.players[i], m.obstacles).x && r.players[i].y == CollideAll(m.players[i], m.obstacles).y)
  }

  /** The collision pass and the culling leave what Survivors describes. */
  lemma {:induction false} CollideThenCull(m: Arena)
    ensures Survivors(m, CleanupOffscreen(HandleCollisions(m)))
  {
    CullItems(m);
    CullObstacles(m);
    CullMissiles(m);
  }

  /** CollideThenCull for the item boxes. */
  lemma {:induction false} CullItems(m: Arena)
    ensures var r := CleanupOffscreen(HandleCollisions(m));
            forall it :: multiset(r.items)[it] == if ItemKept(it) && !Reached(it, m.players) then multiset(m.items)[it] else 0
  {
    var h := HandleCollisions(m);
    ItemsThroughCull(m.items, m.players, h.items, CleanupOffscreen(h).items);
  }

  lemma {:induction false} ItemsThroughCull(items: seq<Item>, ps: seq<Player>, hs: seq<Item>, rs: seq<Item>)
    requires |hs| == |items|
    requires forall j :: 0 <= j < |items| ==> hs[j] == items[j].(dead := items[j].dead || Reached(items[j], ps))
    requires rs == Filter(hs, ItemKept)
    ensures forall it :: multiset(rs)[it] == if ItemKept(it) && !Reached(it, ps) then multiset(items)[it] else 0
  {
    forall it
      ensures multiset(rs)[it] == if ItemKept(it) && !Reached(it, ps) then multiset(items)[it] else 0
    {
      if ItemKept(it) {
        if Reached(it, ps) {
          forall j | 0 <= j < |hs|
            ensures hs[j] != it
          {
            assert hs[j].Bounds() == items[j].Bounds();
          }
          assert it !in hs;
        } else {
          forall j | 0 <= j < |hs|
            ensures hs[j] == it <==> items[j] == it
          {
            assert hs[j].Bounds() == items[j].Bounds();
          }
          CountsAgree(hs, items, it);
        }
      }
    }
  }

  /** CollideThenCull for the obstacles. */
  lemma {:induction false} CullObstacles(m: Arena)
    ensures var r := CleanupOffscreen(HandleCollisions(m));
            forall o :: o in m.obstacles && ObstacleKept(o) && !UnderFire(o, m.missiles) ==> o in r.obstacles
    ensures var r := CleanupOffscreen(HandleCollisions(m));
            forall q :: q in r.obstacles ==> exists o :: o in m.obstacles && Wears(o, q)
  {
    var h := HandleCollisions(m);
    HandleCollisionsShots(m);
    ObstaclesThroughCull(m.obstacles, m.missiles, h.obstacles, CleanupOffscreen(h).obstacles);
  }

  lemma {:induction false} ObstaclesThroughCull(os: seq<Obstacle>, ms: seq<Missile>, hs: seq<Obstacle>, rs: seq<Obstacle>)
    requires |hs| == |os|
    requires forall j :: 0 <= j < |os| ==> Wears(os[j], hs[j])
    requires forall j :: 0 <= j < |os| && !UnderFire(os[j], ms) ==> hs[j] == os[j]
    requires rs == Filter(hs, ObstacleKept)
    ensures forall o :: o in os && ObstacleKept(o) && !UnderFire(o, ms) ==> o in rs
    ensures forall q :: q in rs ==> exists o :: o in os && Wears(o, q)
  {
    SubsequenceElements(rs, hs);
    forall o | o in os && ObstacleKept(o) && !UnderFire(o, ms)
      ensures o in rs
    {
      var j :| 0 <= j < |os| && os[j] == o;
      assert hs[j] == o;
    }
    forall q | q in rs
      ensures exists o :: o in os && Wears(o, q)
    {
      var j :| 0 <= j < |hs| && hs[j] == q;
      assert Wears(os[j], q);
    }
  }

  /** CollideThenCull for the missiles. */
  lemma {:induction false} CullMissiles(m: Arena)
    ensures var r := CleanupOffscreen(HandleCollisions(m));
            forall x :: x in m.missiles && MissileKept(x) && !StrikesSomething(x, m.obstacles) && !HitsSomeone(x, r.players) ==>
              x in r.missiles
    ensures var r := CleanupOffscreen(HandleCollisions(m));
            forall x :: x in r.missiles ==> x in m.missiles && !HitsSomeone(x, r.players)
  {
    var h := HandleCollisions(m);
    HandleCollisionsShots(m);
    MissilesThroughCull(m.missiles, m.obstacles, h.players, h.missiles, CleanupOffscreen(h).missiles);
  }

  lemma {:induction false} MissilesThroughCull(ms: seq<Missile>, os: seq<Obstacle>, ps: seq<Player>, hs: seq<Missile>, rs: seq<Missile>)
    requires |hs| == |ms|
    requires forall k :: 0 <= k < |ms| ==> hs[k] == ms[k].(dead := hs[k].dead) && (ms[k].dead ==> hs[k].dead)
    requires forall k :: 0 <= k < |ms| && HitsSomeone(ms[k], ps) ==> hs[k].dead
    requires forall k :: 0 <= k < |ms| && !HitsSomeone(ms[k], ps) && !StrikesSomething(ms[k], os) ==> hs[k] == ms[k]
    requires rs == Filter(hs, MissileKept)
    ensures forall x :: x in ms && MissileKept(x) && !StrikesSomething(x, os) && !HitsSomeone(x, ps) ==> x in rs
    ensures forall x :: x in rs ==> x in ms && !HitsSomeone(x, ps)
  {
    SubsequenceElements(rs, hs);
    forall x | x in ms && MissileKept(x) && !StrikesSomething(x, os) && !HitsSomeone(x, ps)
      ensures x in rs
    {
      var k :| 0 <= k < |ms| && ms[k] == x;
      assert hs[k] == x;
    }
    forall x | x in rs
      ensures x in ms && !HitsSomeone(x, ps)
    {
      var k :| 0 <= k < |hs| && hs[k] == x;
      assert ms[k] == x;
    }
  }

  /**
   One tick of a running match. The clock advances by the frame time capped
   at 50 ms; the match stops exactly when an outcome is decided.
   */
  function Advance(s: State, inp: Input): (r: State)
    requires WellFormed(s)
    requires |inp.samples| >= SamplesPerTick
    ensures WellFormed(r)
    ensures r.cfg == s.cfg && r.menu == s.menu
    ensures r.elapsed == s.elapsed + Min(MaxStep, inp.dt) / 1000.0
    ensures r.running <==> r.outcome.None?
    ensures r.outcome.Some? <==>
      r.arena.players[0].lives <= 0 || r.arena.players[1].lives <= 0 || r.elapsed >= s.cfg.matchTime as real
    ensures r.outcome == CheckWin(r.arena.players[0], r.arena.players[1], r.elapsed, s.cfg.matchTime)
    ensures forall k :: 0 <= k < |r.arena.missiles| ==> MissileKept(r.arena.missiles[k])
    ensures forall j :: 0 <= j < |r.arena.obstacles| ==> ObstacleKept(r.arena.obstacles[j])
    ensures forall j :: 0 <= j < |r.arena.items| ==> ItemKept(r.arena.items[j])
    ensures |r.arena.obstacles| <= |s.arena.obstacles| + 2 && |r.arena.items| <= |s.arena.items| + 1
    ensures var ticked := TickPlayers(s.arena.players, inp.keys1, inp.keys2, Min(MaxStep, inp.dt),
                                      ScrollSpeed(s.cfg, r.elapsed), s.cfg.moveSpeed, s.arena.missiles).0;
            forall i :: 0 <= i < 2 ==> AtMostOneHit(ticked[i], r.arena.players[i]) && r.arena.players[i].id == s.arena.players[i].id
    ensures Survivors(Staged(s, inp), r.arena)
  {
    var dts := Min(MaxStep, inp.dt);
    var elapsed := s.elapsed + dts / 1000.0;
    var moved := Staged(s, inp);
    CollideThenCull(moved);
    var kept := CleanupOffscreen(HandleCollisions(moved));
    var outcome := CheckWin(kept.players[0], kept.players[1], elapsed, s.cfg.matchTime);
    s.(arena := kept, elapsed := elapsed, running := outcome.None?, outcome := outcome)
  }

  /**
   The menu toggle: open the menu (cursor on the first row) and stop the
   match, or close it and resume the match unless it has ended.
   */
  function Toggle(s: State, toggle: bool): (r: State)
    ensures r.arena == s.arena && r.elapsed == s.elapsed && r.outcome == s.outcome && r.cfg == s.cfg
    ensures !toggle ==> r == s
    ensures toggle ==> (r.menu.Some? <==> s.menu.None?)
    ensures toggle && s.menu.None? ==> r.menu == Some(0) && !r.running
    ensures toggle && s.menu.Some? ==> r.menu.None? && (r.running <==> s.running || s.outcome.None?)
  {
    if !toggle then s
    else if s.menu.None? then s.(menu := Some(0), running := false)
    else s.(menu := None, running := if s.outcome.None? then true else s.running)
  }

  /**
   update: apply the toggle; with the menu open, only the menu acts; with the
   match stopped, nothing happens; otherwise the match advances one tick.
   */
  function Update(s: State, inp: Input): (r: State)
    requires WellFormed(s)
    requires |inp.samples| >= SamplesPerTick
    ensures WellFormed(r)
    ensures var s1 := Toggle(s, inp.toggle);
            s1.menu.Some? || !s1.running ==>
              r.arena == s.arena && r.elapsed == s.elapsed && r.outcome == s.outcome && r.menu.Some? == s1.menu.Some?
    ensures var s1 := Toggle(s, inp.toggle);
            s1.menu.None? && !s1.running ==> r == s1
    ensures var s1 := Toggle(s, inp.toggle);
            s1.menu.None? && s1.running ==>
              r.elapsed == s.elapsed + Min(MaxStep, inp.dt) / 1000.0 && (r.running <==> r.outcome.None?)
    ensures var s1 := Toggle(s, inp.toggle);
            s1.menu.None? && s1.running ==>
              && r == Advance(s1, inp)
              && r.outcome == CheckWin(r.arena.players[0], r.arena.players[1], r.elapsed, s.cfg.matchTime)
    ensures var s1 := Toggle(s, inp.toggle);
            s1.menu.Some? ==>
              var m := MenuInput(s1.cfg, s1.menu.value, inp.menuKeys);
              r.cfg == m.0 && r.menu == Some(m.1) && r.running == s1.running
    ensures var s1 := Toggle(s, inp.toggle);
            s1.menu.None? ==> r.cfg == s.cfg && r.menu.None?
  {
    var s1 := Toggle(s, inp.toggle);
    if s1.menu.Some? then
      var (c, idx) := MenuInput(s1.cfg, s1.menu.value, inp.menuKeys);
      s1.(cfg := c, menu := Some(idx))
    else if !s1.running then s1
    else Advance(s1, inp)
  }

  /** While the menu stays open, the match does not move. */
  lemma FrozenWhilePaused(s: State, inp: Input)
    requires WellFormed(s) && |inp.samples| >= SamplesPerTick
    requires s.menu.Some? && !inp.toggle
    ensures var r := Update(s, inp);
            r.arena == s.arena && r.elapsed == s.elapsed && r.outcome == s.outcome && r.menu.Some?
  {
  }

  /** Once the match has ended, no frame changes the field, the clock or the outcome. */
  lemma FrozenOnceEnded(s: State, inp: Input)
    requires Inv(s) && |inp.samples| >= SamplesPerTick
    requires s.outcome.Some?
    ensures var r := Update(s, inp);
            r.arena == s.arena && r.elapsed == s.elapsed && r.outcome == s.outcome && !r.running
  {
  }

  /** A running frame without a toggle advances the clock by at most 50 ms. */
  lemma RunningFrameAdvancesClock(s: State, inp: Input)
    requires WellFormed(s) && |inp.samples| >= SamplesPerTick
    requires s.running && s.menu.None? && !inp.toggle
    ensures var r := Update(s, inp);
            && r.elapsed == s.elapsed + Min(MaxStep, inp.dt) / 1000.0
            && r.elapsed <= s.elapsed + 0.05
            && (r.running <==> r.outcome.None?)
  {
  }

  /**
   A vulnerable player 1 on its last life that touches a spike drops to zero
   lives, and the outcome rule then declares player 2 the winner.
   */
  lemma SpikeDecidesMatch()
    ensures var p1 := MakePlayer(1, 100.0, 500.0, 1);
            var p2 := MakePlayer(2, 300.0, 300.0, 3);
            var spike := Obstacle(Spike, 100.0, 520.0, 20.0, 60.0, 999, false);
            var r := HandleCollisions(Arena([p1, p2], [], [], [spike]));
            r.players[0].lives == 0 && CheckWin(r.players[0], r.players[1], 1.0, 60) == Some(P2Wins)
  {
    var p1 := MakePlayer(1, 100.0, 500.0, 1);
    var spike := Obstacle(Spike, 100.0, 520.0, 20.0, 60.0, 999, false);
    assert CollideAll(p1, [spike]) == CollideAll(Damage(p1, 1), []);
  }

  /** The life reward never reaches a player: spawning never makes one, and pickups only pass rewards on. */
  lemma {:induction false} GrantedNeverLife(p: Player, items: seq<Item>, q: Player)
    requires Granted(p, items, q)
    requires p.item != Some(Life)
    requires forall j :: 0 <= j < |items| ==> items[j].reward != Life
    ensures q.item != Some(Life)
  {
    if p.item.None? && q.item.Some? {
      var k :| FirstOverlap(p.Bounds(), items, k) && q.item.value == items[k].reward;
    }
  }

  /** Every reachable state satisfies Inv: it holds initially and each frame keeps it. */
  lemma {:induction false} UpdatePreservesInv(s: State, inp: Input)
    requires Inv(s) && |inp.samples| >= SamplesPerTick
    ensures Inv(Update(s, inp))
  {
    var s1 := Toggle(s, inp.toggle);
    if s1.menu.None? && s1.running {
      AdvancePreservesInv(s1, inp);
    }
  }

  lemma {:induction false} AdvancePreservesInv(s: State, inp: Input)
    requires WellFormed(s) && |inp.samples| >= SamplesPerTick
    requires s.menu.None?
    requires s.arena.players[0].id == 1 && s.arena.players[1].id == 2
    requires ArenaOk(s.arena)
    ensures Inv(Advance(s, inp))
  {
    var moved := Staged(s, inp);
    StagedKeepsArenaOk(s, inp);
    var hit := HandleCollisions(moved);
    CollisionsKeepArenaOk(moved);
    CleanupKeepsArenaOk(hit);
    assert Advance(s, inp).arena == CleanupOffscreen(hit);
  }

  lemma {:induction false} StagedKeepsArenaOk(s: State, inp: Input)
    requires WellFormed(s) && |inp.samples| >= SamplesPerTick
    requires ArenaOk(s.arena)
    ensures ArenaOk(Staged(s, inp))
  {
    var dts := Min(MaxStep, inp.dt);
    var sp := ScrollSpeed(s.cfg, s.elapsed + dts / 1000.0);
    var spawned := SpawnLogic(s.cfg, s.arena.obstacles, s.arena.items, inp.samples);
    var (players, missiles) := TickPlayers(s.arena.players, inp.keys1, inp.keys2, dts, sp, s.cfg.moveSpeed, s.arena.missiles);
    var before := Arena(players, spawned.items, missiles, spawned.obstacles);
    SpawnKeepsArenaOk(s.cfg, s.arena, inp.samples);
    assert ArenaOk(before);
    assert Staged(s, inp) == MoveAll(before, sp, dts);
  }

  lemma {:induction false} SpawnKeepsArenaOk(c: Config, a: Arena, rs: seq<Sample>)
    requires |rs| >= SamplesPerTick
    requires ArenaOk(a)
    ensures var sp := SpawnLogic(c, a.obstacles, a.items, rs);
            && (forall j :: 0 <= j < |sp.obstacles| ==> ObstacleOk(sp.obstacles[j]))
            && (forall j :: 0 <= j < |sp.items| ==> sp.items[j].reward != Life)
  {
    var sp := SpawnLogic(c, a.obstacles, a.items, rs);
    forall j | 0 <= j < |sp.obstacles|
      ensures ObstacleOk(sp.obstacles[j])
    {
      if j < |a.obstacles| {
        assert sp.obstacles[j] == sp.obstacles[..|a.obstacles|][j];
      }
    }
    forall j | 0 <= j < |sp.items|
      ensures sp.items[j].reward != Life
    {
      if j < |a.items| {
        assert sp.items[j] == sp.items[..|a.items|][j];
      }
    }
  }

  lemma {:induction false} CollisionsKeepArenaOk(a: Arena)
    requires ArenaOk(a)
    ensures ArenaOk(HandleCollisions(a))
  {
    var r := HandleCollisions(a);
    forall i | 0 <= i < |r.players|
      ensures r.players[i].item != Some(Life)
    {
      GrantedNeverLife(a.players[i], a.items, a.players[i].(item := r.players[i].item));
    }
  }

  lemma {:induction false} CleanupKeepsArenaOk(a: Arena)
    requires ArenaOk(a)
    ensures ArenaOk(CleanupOffscreen(a))
  {
    var r := CleanupOffscreen(a);
    SubsequenceElements(r.obstacles, a.obstacles);
    SubsequenceElements(r.items, a.items);
    forall j | 0 <= j < |r.obstacles|
      ensures ObstacleOk(r.obstacles[j])
    {
      assert r.obstacles[j] in a.obstacles;
    }
    forall j | 0 <= j < |r.items|
      ensures r.items[j].reward != Life
    {
      assert r.items[j] in a.items;
    }
  }
}

=== FILE: spawner.dfy ===
/**
 The per-tick spawners. Every Math.random() draw is an explicit sample in
 [0, 1), consumed in the order the game draws them.
 */
module Spawner {
  import opened Entities
  import opened Tunables

  type Sample = r: real | 0.0 <= r < 1.0 witness 0.0

  /** All new entities enter at this x, just past the right edge. */
  const SpawnX: real := 840.0

  /** The most samples one tick can consume: 1 + 4, then 1, then 1 + 2. */
  const SamplesPerTick: int := 9

  /** One of three sizes, 24, 40 or 56, by which third of [0, 1) the sample falls in. */
  function SizeFromSample(s: Sample): (r: real)
    ensures r == 24.0 <==> s < 1.0 / 3.0
    ensures r == 40.0 <==> 1.0 / 3.0 <= s < 2.0 / 3.0
    ensures r == 56.0 <==> 2.0 / 3.0 <= s
  {
    24.0 + (s * 3.0).Floor as real * 16.0
  }

  /** A vertical position in the band the obstacles and item boxes use. */
  function BandY(s: Sample): (y: real)
    ensures 120.0 <= y < 480.0
  {
    120.0 + s * 360.0
  }

  /** spawnObstacle: a wall (2 hit points) or a rock (999), fifty-fifty. */
  function SpawnObstacle(ys: Sample, ds: Sample, ws: Sample, hs: Sample): (o: Obstacle)
    ensures o.x == SpawnX && 120.0 <= o.y < 480.0 && !o.dead
    ensures o.kind == Wall <==> ds < 0.5
    ensures o.kind != Spike
    ensures o.hp == (if o.kind == Wall then 2 else 999)
    ensures o.w in {24.0, 40.0, 56.0} && o.h in {24.0, 40.0, 56.0}
    ensures o.y == BandY(ys) && o.w == SizeFromSample(ws) && o.h == SizeFromSample(hs)
    ensures ObstacleOk(o)
  {
    var destructible := ds < 0.5;
    Obstacle(if destructible then Wall else Rock, SpawnX, BandY(ys),
             SizeFromSample(ws), SizeFromSample(hs), if destructible then 2 else 999, false)
  }

  /** spawnSpike: a fixed-size spike near the floor, never destroyed. */
  function SpawnSpike(): (o: Obstacle)
    ensures o.kind == Spike && o.x == SpawnX && o.y == 520.0 && !o.dead
    ensures o.w == 20.0 && o.h == 60.0 && o.hp == 999
    ensures ObstacleOk(o)
  {
    Obstacle(Spike, SpawnX, 520.0, 20.0, 60.0, 999, false)
  }

  /**
   spawnItemBox: the reward is front, back or sides by roughly thirds of the
   sample. The `life` default is always overwritten.
   */
  function SpawnItemBox(ys: Sample, ks: Sample): (it: Item)
    ensures it.reward != Life
    ensures it.reward == Front <==> ks < 0.33
    ensures it.reward == Back <==> 0.33 <= ks < 0.66
    ensures it.reward == Sides <==> 0.66 <= ks
    ensures it.x == SpawnX && 120.0 <= it.y < 480.0 && !it.dead
    ensures it.y == BandY(ys) && it.w == 20.0 && it.h == 20.0
  {
    var reward := if ks < 0.33 then Front else if ks < 0.66 then Back else Sides;
    Item(SpawnX, BandY(ys), 20.0, 20.0, reward, false)
  }

  datatype Spawned = Spawned(obstacles: seq<Obstacle>, items: seq<Item>)

  /** Where the spike draw sits in the sample stream: after the obstacle draw and, if it succeeded, its four draws. */
  function SpikeDraw(c: Config, rs: seq<Sample>): nat
    requires |rs| >= 1
  {
    if rs[0] < c.rateObs then 5 else 1
  }

  /** Where the item-box draw sits: right after the spike draw. */
  function ItemDraw(c: Config, rs: seq<Sample>): nat
    requires |rs| >= 1
  {
    SpikeDraw(c, rs) + 1
  }

  /**
   spawnLogic: one Bernoulli draw per category against its rate, in the order
   obstacle, spike, item box; a successful draw is followed by the draws of
   that spawner. New entities are appended after the existing ones.
   */
  function SpawnLogic(c: Config, obs: seq<Obstacle>, items: seq<Item>, rs: seq<Sample>): (r: Spawned)
    requires |rs| >= SamplesPerTick
    ensures |obs| <= |r.obstacles| <= |obs| + 2 && r.obstacles[..|obs|] == obs
    ensures |r.obstacles| == |obs| + (if rs[0] < c.rateObs then 1 else 0)
                                   + (if rs[SpikeDraw(c, rs)] < c.rateSpike then 1 else 0)
    ensures |items| <= |r.items| <= |items| + 1 && r.items[..|items|] == items
    ensures forall j :: |obs| <= j < |r.obstacles| ==> ObstacleOk(r.obstacles[j]) && !r.obstacles[j].dead
    ensures forall j :: |items| <= j < |r.items| ==> r.items[j].reward != Life && !r.items[j].dead
    ensures (|r.obstacles| > |obs| && r.obstacles[|obs|].kind != Spike) <==> rs[0] < c.rateObs
    ensures rs[0] < c.rateObs ==> r.obstacles[|obs|] == SpawnObstacle(rs[1], rs[2], rs[3], rs[4])
    ensures (|r.obstacles| > |obs| && r.obstacles[|r.obstacles| - 1].kind == Spike) <==> rs[SpikeDraw(c, rs)] < c.rateSpike
    ensures rs[SpikeDraw(c, rs)] < c.rateSpike ==> r.obstacles[|r.obstacles| - 1] == SpawnSpike()
    ensures |r.items| == |items| + 1 <==> rs[ItemDraw(c, rs)] < c.rateItem
    ensures rs[ItemDraw(c, rs)] < c.rateItem ==>
      r.items[|items|] == SpawnItemBox(rs[ItemDraw(c, rs) + 1], rs[ItemDraw(c, rs) + 2])
    ensures c.rateObs <= 0.0 ==> forall j :: |obs| <= j < |r.obstacles| ==> r.obstacles[j].kind == Spike
    ensures c.rateObs >= 1.0 ==> |r.obstacles| > |obs| && r.obstacles[|obs|].kind != Spike
    ensures c.rateSpike <= 0.0 ==> forall j :: |obs| <= j < |r.obstacles| ==> r.obstacles[j].kind != Spike
    ensures c.rateSpike >= 1.0 ==> |r.obstacles| > |obs| && r.obstacles[|r.obstacles| - 1].kind == Spike
    ensures c.rateItem <= 0.0 ==> r.items == items
    ensures c.rateItem >= 1.0 ==> |r.items| == |items| + 1
  {
    var obs1 := if rs[0] < c.rateObs then obs + [SpawnObstacle(rs[1], rs[2], rs[3], rs[4])] else obs;
    var i := SpikeDraw(c, rs);
    var obs2 := if rs[i] < c.rateSpike then obs1 + [SpawnSpike()] else obs1;
    var j := ItemDraw(c, rs);
    var items1 := if rs[j] < c.rateItem then items + [SpawnItemBox(rs[j + 1], rs[j + 2])] else items;
    Spawned(obs2, items1)
  }
}

=== FILE: tunables.dfy ===
/**
 The tunable parameters edited from the pause menu, the per-row setters with
 their clamping ranges, and the menu cursor logic.
 */
module Tunables {
  import opened Numeric

  datatype Config = Config(
    matchTime: int,
    lifeStart: int,
    rateObs: real,
    rateSpike: real,
    rateItem: real,
    spdSlow: real,
    spdMed: real,
    spdFast: real,
    moveSpeed: real)

  /**
   The values the game starts with. Two of them lie outside their setter's
   range (lifeStart 999 > 9, moveSpeed 0.02 < 0.1): the first menu edit of
   such a row jumps into the range.
   */
  const Default: Config := Config(60, 999, 0.02, 0.008, 0.004, 0.12, 0.18, 0.26, 0.02)

  /** Number of menu rows. */
  const MenuSize: int := 9

  predicate IsRow(i: int) { 0 <= i < MenuSize }

  /** Rows 0 and 1 (match time, start lives) hold whole numbers. */
  predicate IntegerRow(i: int) { i <= 1 }

  predicate IsInteger(v: real) { v == v.Floor as real }

  function Lower(i: int): real
    requires IsRow(i)
  {
    [10.0, 1.0, 0.0, 0.0, 0.0, 0.02, 0.02, 0.02, 0.1][i]
  }

  function Upper(i: int): real
    requires IsRow(i)
  {
    [300.0, 9.0, 0.1, 0.05, 0.05, 1.0, 1.5, 2.0, 3.0][i]
  }

  /** The nine row values in menu order. */
  function Fields(c: Config): (f: seq<real>)
    ensures |f| == MenuSize
  {
    [c.matchTime as real, c.lifeStart as real, c.rateObs, c.rateSpike, c.rateItem,
     c.spdSlow, c.spdMed, c.spdFast, c.moveSpeed]
  }

  /** The getter of menu row `i`. */
  function Get(c: Config, i: int): real
    requires IsRow(i)
  {
    Fields(c)[i]
  }

  /**
   What the setter of row `i` stores for input `v`, read off the range tables:
   on the whole-number rows the input is rounded and then clamped, on the
   others it is clamped.
   */
  function Stored(i: int, v: real): real
    requires IsRow(i)
  {
    if IntegerRow(i) then ClampInt(v, Lower(i).Floor, Upper(i).Floor) as real
    else Clamp(v, Lower(i), Upper(i))
  }

  /**
   What the setters promise, read off Stored: the value lies in the row's
   range, is whole on the whole-number rows, equals an in-range input, and
   sits on the nearer bound for an out-of-range input.
   */
  lemma StoredFacts(i: int, v: real)
    requires IsRow(i)
    ensures Lower(i) <= Stored(i, v) <= Upper(i)
    ensures IntegerRow(i) ==> IsInteger(Stored(i, v))
    ensures Lower(i) <= v <= Upper(i) && (IntegerRow(i) ==> IsInteger(v)) ==> Stored(i, v) == v
    ensures v < Lower(i) ==> Stored(i, v) == Lower(i)
    ensures v > Upper(i) ==> Stored(i, v) == Upper(i)
    ensures IntegerRow(i) && Lower(i) <= Round(v) as real <= Upper(i) ==> Stored(i, v) == Round(v) as real
  {
    if IntegerRow(i) {
      assert Lower(i).Floor as real == Lower(i) && Upper(i).Floor as real == Upper(i);
      RoundOfInteger(v.Floor);
    }
  }

  /**
   The setter of menu row `i`: out-of-range input is clamped (and rounded on
   the whole-number rows), never rejected; input already in range is stored
   as given.
   */
  function Set(c: Config, i: int, v: real): (r: Config)
    requires IsRow(i)
    ensures Get(r, i) == Stored(i, v)
    ensures Lower(i) <= Get(r, i) <= Upper(i)
    ensures IntegerRow(i) ==> IsInteger(Get(r, i))
    ensures Lower(i) <= v <= Upper(i) && (IntegerRow(i) ==> IsInteger(v)) ==> Get(r, i) == v
    ensures v < Lower(i) ==> Get(r, i) == Lower(i)
    ensures v > Upper(i) ==> Get(r, i) == Upper(i)
    ensures IntegerRow(i) && Lower(i) <= Round(v) as real <= Upper(i) ==> Get(r, i) == Round(v) as real
  {
    var r := match i
      case 0 => c.(matchTime := ClampInt(v, 10, 300))
      case 1 => c.(lifeStart := ClampInt(v, 1, 9))
      case 2 => c.(rateObs := Clamp(v, 0.0, 0.1))
      case 3 => c.(rateSpike := Clamp(v, 0.0, 0.05))
      case 4 => c.(rateItem := Clamp(v, 0.0, 0.05))
      case 5 => c.(spdSlow := Clamp(v, 0.02, 1.0))
      case 6 => c.(spdMed := Clamp(v, 0.02, 1.5))
      case 7 => c.(spdFast := Clamp(v, 0.02, 2.0))
      case _ => c.(moveSpeed := Clamp(v, 0.1, 3.0));
    assert Get(r, i) == Stored(i, v);
    StoredFacts(i, v);
    r
  }

  /** A setter changes its own row and no other. */
  lemma SetLeavesOtherRows(c: Config, i: int, v: real)
    requires IsRow(i)
    ensures Fields(Set(c, i, v)) == Fields(c)[i := Get(Set(c, i, v), i)]
  {
  }

  /** The amount one left/right press changes row `i` by. */
  function Step(i: int): real {
    if i <= 1 then 1.0 else if i <= 4 then 0.001 else 0.01
  }

  /** Key presses seen by the menu on one frame. */
  datatype MenuKeys = MenuKeys(up: bool, down: bool, left: bool, right: bool)

  /** The cursor after an up press: one row up, wrapping from the first row to the last. */
  function CursorUp(idx: int): (r: int)
    requires IsRow(idx)
    ensures IsRow(r)
    ensures r == if idx == 0 then MenuSize - 1 else idx - 1
  {
    (idx + MenuSize - 1) % MenuSize
  }

  /** The cursor after a down press: one row down, wrapping from the last row to the first. */
  function CursorDown(idx: int): (r: int)
    requires IsRow(idx)
    ensures IsRow(r)
    ensures r == if idx == MenuSize - 1 then 0 else idx + 1
  {
    (idx + 1) % MenuSize
  }

  /** A left press on row `i`: the setter applied to the value one step lower. */
  function StepDown(c: Config, i: int): (r: Config)
    requires IsRow(i)
    ensures Fields(r) == Fields(c)[i := Get(r, i)]
    ensures Get(r, i) == Stored(i, Get(c, i) - Step(i))
    ensures Lower(i) <= Get(r, i) <= Upper(i)
  {
    SetLeavesOtherRows(c, i, Get(c, i) - Step(i));
    Set(c, i, Get(c, i) - Step(i))
  }

  /** A right press on row `i`: the setter applied to the value one step higher. */
  function StepUp(c: Config, i: int): (r: Config)
    requires IsRow(i)
    ensures Fields(r) == Fields(c)[i := Get(r, i)]
    ensures Get(r, i) == Stored(i, Get(c, i) + Step(i))
    ensures Lower(i) <= Get(r, i) <= Upper(i)
  {
    SetLeavesOtherRows(c, i, Get(c, i) + Step(i));
    Set(c, i, Get(c, i) + Step(i))
  }

  /** A left press lowers row `i` by one step, then a right press raises it by one. */
  function Adjust(c: Config, i: int, left: bool, right: bool): (r: Config)
    requires IsRow(i)
    ensures Fields(r) == Fields(c)[i := Get(r, i)]
    ensures left || right ==> Lower(i) <= Get(r, i) <= Upper(i)
    ensures !left && !right ==> r == c
    ensures left && !right ==> Get(r, i) == Stored(i, Get(c, i) - Step(i))
    ensures right && !left ==> Get(r, i) == Stored(i, Get(c, i) + Step(i))
    ensures left && right ==> Get(r, i) == Stored(i, Stored(i, Get(c, i) - Step(i)) + Step(i))
  {
    var c1 := if left then StepDown(c, i) else c;
    if right then StepUp(c1, i) else c1
  }

  /** The cursor after the up press, if any, and then the down press, if any. */
  function MoveCursor(idx: int, up: bool, down: bool): (r: int)
    requires IsRow(idx)
    ensures IsRow(r)
    ensures !up && !down ==> r == idx
    ensures up && !down ==> r == CursorUp(idx)
    ensures down && !up ==> r == CursorDown(idx)
    ensures up && down ==> r == idx
  {
    var i := if up then CursorUp(idx) else idx;
    if down then CursorDown(i) else i
  }

  /**
   handleMenuInput: move the cursor (up, then down), then adjust the row the
   cursor ends on. Only that row can change.
   */
  function MenuInput(c: Config, idx: int, k: MenuKeys): (r: (Config, int))
    requires IsRow(idx)
    ensures IsRow(r.1)
    ensures !k.up && !k.down ==> r.1 == idx
    ensures k.up && !k.down ==> r.1 == CursorUp(idx)
    ensures k.down && !k.up ==> r.1 == CursorDown(idx)
    ensures k.up && k.down ==> r.1 == idx
    ensures r.1 == MoveCursor(idx, k.up, k.down)
    ensures r.0 == Adjust(c, r.1, k.left, k.right)
    ensures Fields(r.0) == Fields(c)[r.1 := Get(r.0, r.1)]
    ensures k.left || k.right ==> Lower(r.1) <= Get(r.0, r.1) <= Upper(r.1)
    ensures !k.left && !k.right ==> r.0 == c
    ensures k.left && !k.right ==> Get(r.0, r.1) == Stored(r.1, Get(c, r.1) - Step(r.1))
    ensures k.right && !k.left ==> Get(r.0, r.1) == Stored(r.1, Get(c, r.1) + Step(r.1))
  {
    var i := MoveCursor(idx, k.up, k.down);
    (Adjust(c, i, k.left, k.right), i)
  }

  /** The cursor wraps around both ends, and down undoes up. */
  lemma CursorWraps(idx: int)
    requires IsRow(idx)
    ensures CursorUp(0) == MenuSize - 1 && CursorDown(MenuSize - 1) == 0
    ensures CursorDown(CursorUp(idx)) == idx && CursorUp(CursorDown(idx)) == idx
  {
  }

  /**
   Pressing right and then left on a row whose value has room for one step
   restores the value.
   */
  lemma RightThenLeftRestores(c: Config, idx: int)
    requires IsRow(idx)
    requires Lower(idx) <= Get(c, idx) && Get(c, idx) + Step(idx) <= Upper(idx)
    requires IntegerRow(idx) ==> IsInteger(Get(c, idx))
    ensures var up := MenuInput(c, idx, MenuKeys(false, false, false, true));
            var down := MenuInput(up.0, up.1, MenuKeys(false, false, true, false));
            down.1 == idx && Get(down.0, idx) == Get(c, idx)
  {
    var v := Get(c, idx);
    var up := MenuInput(c, idx, MenuKeys(false, false, false, true));
    assert IntegerRow(idx) ==> IsInteger(v + Step(idx)) by {
      if IntegerRow(idx) {
        assert (v + 1.0).Floor == v.Floor + 1;
      }
    }
    assert Get(up.0, idx) == v + Step(idx);
  }
}
